=== FILE: README.md ===
# Portfolio website core, modelled in Dafny

The portfolio site is an Express server. It renders a single page of tabs
(home, projects, skills, contact), and a script snapshots that page into a
static site for GitHub Pages. This project models the parts of it that hold
logic:

- **Roman numerals** (`roman.dfy`): `toRoman`, the greedy conversion that
  numbers the project cards. It comes with a digit-by-digit reference
  spelling, a parser used to prove that no information is lost, and the
  "no letter four times in a row" property.
- **Page rendering** (`pagerender.dfy`): what the template of `generateHtml`
  emits for the bio, each project card and the skills grid. Each card is a
  sequence of abstract blocks in template order, and each optional block is
  emitted exactly when its field passes the template's test.
- **String scanning** (`text.dfy`): JavaScript's `split` with a string
  separator, and `replace` with a global literal pattern. Both scan left to
  right, with non-overlapping matches.
- **Path rewrite** (`pathrewrite.dfy`): the five chained replacements that
  turn root-relative references into relative ones.
- **Asset mirror** (`filetree.dfy`): `copyDirectory` over a file system
  modelled as a map from paths to entries, with the errors that the `fs`
  calls would throw.
- **Snapshot** (`snapshot.dfy`): the whole script. It prepares
  `dist/static`, copies `public`, writes `index.html`, `.nojekyll` and
  `CNAME`, and ends with an exit code.
- **Tab controller** (`tabs.dfy`): this code is the same in all three client
  scripts.
- **Contact form** (`contactform.dfy` for the shared state, then one file per
  script):
  - `publicform.dfy` for `public/javascripts/main.js`;
  - `legacyform.dfy` for `javascripts/main.js`;
  - `altform.dfy` for `public/javascripts/contact-alternative.js`, with a
    second attempt through `sendForm`.

`wrappers.dfy` holds the `Option` and `Result` types.

Integers are unbounded. The source's `num` is a JavaScript number; the model
covers its integer values, and agrees with the double arithmetic up to 2^53
(see "Left out"). Strings are `seq<char>`.

Some things are inputs to the model rather than modelled:

- what the running server answers the snapshot's fetch with;
- how the email relay settles each call;
- the submit time;
- whether the relay's SDK is on the page.

## Model

| member | source | states |
|---|---|---|
| Roman.ToRoman | src/index.tsx:319-344 | `toRoman(n)` is the empty string for every `n < 1`, and uses only the letters I, V, X, L, C, D and M; `Roman.GreedyIsDecimal` and `Roman.RomanRoundTrip` pin its value |
| Roman.ToRomanLoop | src/index.tsx:335-343 | The two nested loops return exactly `ToRoman(n)`, the greedy decomposition over the 13-entry table, for every integer `n` in exact arithmetic |
| Roman.GreedyShape | src/index.tsx:320-343 | The greedy loop emits table entries in table order. For `num >= 0` their values add up to `num`, and for `num < 1` it emits nothing |
| Roman.AscendingValues | src/index.tsx:320-334 | Entries taken in table order have non-increasing values |
| Roman.ValuesStrictlyDecrease | src/index.tsx:320-334 | A later entry of the table has a strictly smaller value |
| Roman.RomanIsGreedyTokens | src/index.tsx:319-344 | `toRoman(n)` is a concatenation of table numerals in non-increasing value order, and for `n >= 0` their values sum to `n` |
| Roman.GreedyStep | src/index.tsx:337-340 | One pass of the inner loop appends the entry's numeral and subtracts its value |
| Roman.SpellStep | src/index.tsx:337-340 | One pass of the inner loop adds exactly the entry's numeral to the text |
| Roman.SkipTo | src/index.tsx:336-338 | Entries whose value exceeds what is left are passed over without output |
| Roman.Thousands | src/index.tsx:336-340 | The `M` entry is taken `n / 1000` times, leaving `n % 1000` |
| Roman.UnitRun | src/index.tsx:336-340 | The unit entry of a decade (C, X or I) is taken as many times as the digit says, up to three |
| Roman.Decade | src/index.tsx:320-343 | Within one decade the loop emits exactly the tokens of that decimal digit and passes the remainder on |
| Roman.DecadeHigh | src/index.tsx:320-343 | For digits 5 to 8 the loop takes the five entry (D, L or V), then the units, and passes the remainder on |
| Roman.SpellRep | src/index.tsx:321 | `c` copies of the `M` entry spell `c` letters `M` |
| Roman.SpellDigit | src/index.tsx:320-334 | The tokens of one digit spell the textbook numeral for that digit |
| Roman.UnitsOnly | src/index.tsx:329-334 | Below ten, the greedy loop spells the textbook units digit |
| Roman.TensAndUnits | src/index.tsx:325-334 | Below a hundred, the greedy loop emits the tens tokens and then the units tokens |
| Roman.BelowThousand | src/index.tsx:321-334 | Below a thousand, the loop emits hundreds, tens and units tokens in that order |
| Roman.GreedyDecades | src/index.tsx:320-343 | Every `n >= 0` is emitted as thousands, hundreds, tens and units tokens, in that order |
| Roman.SpellDecades | src/index.tsx:320-343 | Those tokens spell the `M` run followed by the three textbook digits |
| Roman.SpellLow | src/index.tsx:325-334 | The tens and units tokens spell the textbook tens and units digits |
| Roman.SpellHundreds | src/index.tsx:321-324 | The hundreds tokens spell the textbook hundreds digit (C, D, M) |
| Roman.SpellTens | src/index.tsx:325-329 | The tens tokens spell the textbook tens digit (X, L, C) |
| Roman.SpellUnits | src/index.tsx:329-333 | The units tokens spell the textbook units digit (I, V, X) |
| Roman.GreedyIsDecimal | src/index.tsx:319-344 | For every `n >= 0`, `toRoman(n)` equals the independent digit-by-digit spelling |
| Roman.SmallExamples | src/index.tsx:319-344 | `toRoman` gives "I" for 1, "IV" for 4 and "IX" for 9 |
| Roman.FortyNine | src/index.tsx:319-344 | `toRoman(49)` is "XLIX" |
| Roman.LargeExamples | src/index.tsx:319-344 | `toRoman(2024)` is "MMXXIV" |
| Roman.RunFreeConcat | src/index.tsx:336-343 | Joining two run-free strings whose meeting letters differ gives a run-free string |
| Roman.RepeatShape | src/index.tsx:337-340 | Up to three repetitions of a one-letter numeral are that letter repeated, and nothing else |
| Roman.DigitShape | src/index.tsx:320-334 | One textbook digit holds no run of four, uses only its decade's three letters, and starts with the unit or the five letter |
| Roman.Assemble | src/index.tsx:320-343 | Hundreds, tens and units digits put after a short `M` run hold no run of four |
| Roman.RomanRunFree | src/index.tsx:319-344 | For 0 <= n <= 3999, no letter of `toRoman(n)` appears four times in a row |
| Roman.RunAtFourThousand | src/index.tsx:321 | `toRoman(4000)` is "MMMM": the bound 3999 is tight |
| Roman.SpellStarts | src/index.tsx:320-334 | A spelling is empty exactly when there are no tokens, and otherwise starts with the first token's leading letter |
| Roman.NoClash | src/index.tsx:320-334 | A numeral followed by numerals of the same or later entries never starts with the numeral of an earlier entry, so reading greedily cannot overshoot |
| Roman.ParseSpell | src/index.tsx:320-343 | Reading greedily the spelling of any token sequence in table order returns the sum of its values |
| Roman.RomanRoundTrip | src/index.tsx:319-344 | For every `n >= 0`, reading `toRoman(n)` back gives `n` |
| Roman.RomanInjective | src/index.tsx:319-344 | Different non-negative numbers get different numerals |
| Roman.SpellLetters | src/index.tsx:320-334 | Spelled tokens use only the letters I, V, X, L, C, D, M |
| Text.SplitOn | src/index.tsx:176-177 | `split` gives at least one part, the parts joined with the separator give the input back, no part holds the separator, and no occurrence of the separator starts inside a part that a separator follows, so the cuts are the leftmost ones the scan finds |
| Text.LeftmostSplitExample | src/index.tsx:176-177 | With three newlines in a row, `"a\n\n\nb".split("\n\n")` is `["a", "\nb"]` |
| Text.ReplaceAll | scripts/generate-static.js:34-35 | A global literal replace is the split parts joined with the replacement |
| PathRewrite.Rewrite | scripts/generate-static.js:33-38 | The five-step chain equals its first two steps: `href="/` becomes `href="`, then `src="/` becomes `src="`; the three capture steps change nothing |
| Text.FirstPartHasNoMatch | src/index.tsx:176 | The text before the first separator holds no separator |
| Text.JoinLength | src/index.tsx:176-177 | A join is as long as its parts plus one separator between each pair of neighbours |
| Text.SplitWithoutMatch | src/index.tsx:176 | A text without the separator splits into itself alone |
| Text.ReplaceAllLength | scripts/generate-static.js:34-35 | Each match changes the length by the difference between pattern and replacement |
| Text.ReplaceWithSelf | scripts/generate-static.js:36-38 | Replacing a pattern by itself changes nothing |
| Text.ReplaceWithoutMatch | scripts/generate-static.js:33-38 | A text with no match passes through unchanged and has zero matches |
| Text.ReplaceAtFront | scripts/generate-static.js:34-35 | A match at the front is replaced, and the scan resumes right after it |
| Text.AbsentLetter | scripts/generate-static.js:34-35 | A text missing one of the pattern's characters holds no match |
| Text.ConsNoMatch | scripts/generate-static.js:34-35 | A leading character that cannot start the pattern adds no match |
| PathRewrite.CaptureStepIsIdentity | scripts/generate-static.js:36-38 | A step that captures `images/`, `stylesheets/` or `javascripts/` and re-inserts it with `$1` is the identity |
| PathRewrite.NoRootReferencesUnchanged | scripts/generate-static.js:33-38 | A page without `href="/` or `src="/`, such as one with only absolute `https://` references, is unchanged |
| PathRewrite.RewriteLength | scripts/generate-static.js:34-35 | The output is shorter by one character per match of the first two patterns |
| PathRewrite.LeadingSlashDropped | scripts/generate-static.js:34 | `href="/path` becomes `href="path`, with the rest of the path intact |
| PathRewrite.OneSlashPerMatch | scripts/generate-static.js:34 | Single pass: `href="//x` becomes `href="/x`, which still begins `href="/` |
| FileTree.MakeDirs | scripts/generate-static.js:14-16 | Recursive `mkdir`. On success the path and every missing directory before it exist, nothing already there changes, and every new entry is a directory on the way. It fails exactly when some path on the way is a file: with EEXIST when that file is the path itself, with ENOTDIR when it is an ancestor |
| FileTree.WriteFile | scripts/generate-static.js:89 | `copyFileSync` and `writeFileSync` succeed exactly when the parent is a directory and the target is not; the target then holds the content and nothing else changes |
| FileTree.CopyDirectory | scripts/generate-static.js:67-92 | After a successful copy the destination exists, nothing is deleted, and nothing outside the destination changes; `FileTreeFacts.DirectoryEffect` and `DirectoryMirror` give the full effect |
| FileTree.CopyChildren | scripts/generate-static.js:77-91 | After a successful loop nothing is deleted and nothing outside the destination changes; `FileTreeFacts.ChildrenEffect` and `ChildrenMirror` give the full effect |
| FileTreeFacts.MakeDirsErrors | scripts/generate-static.js:14-16 | Over a file `a`, making `a` fails with EEXIST and making `a/b` fails with ENOTDIR |
| FileTreeFacts.WritesBelow | scripts/generate-static.js:77-90 | Every file the copy writes lies strictly below the destination |
| FileTreeFacts.DirectoryEffect | scripts/generate-static.js:67-92 | After a successful copy nothing is deleted, and no entry changes kind. Entries that are not written keep their content, and each new entry is a written file or a directory near the destination |
| FileTreeFacts.ChildrenEffect | scripts/generate-static.js:77-91 | The same for the loop over the listing |
| FileTreeFacts.DirectoryMirror | scripts/generate-static.js:67-92 | After a successful copy, every source file at any depth is at the same relative path below the destination, with the same content (a later duplicate wins) |
| FileTreeFacts.ChildrenMirror | scripts/generate-static.js:77-91 | The same for the loop over the listing |
| FileTreeFacts.DirectoryRerun | scripts/generate-static.js:67-92 | Copying again onto any file system shaped like a successful result succeeds, and only puts the source files in |
| FileTreeFacts.ChildrenRerun | scripts/generate-static.js:77-91 | The same for the loop over the listing |
| FileTreeFacts.FirstRerun | scripts/generate-static.js:82-90 | In such a rerun the first child (a file copy or a subdirectory) succeeds and keeps the shape |
| FileTreeFacts.CopyIdempotent | scripts/generate-static.js:67-92 | A second copy onto the result of a successful one changes nothing |
| FileTreeFacts.OutsideUntouched | scripts/generate-static.js:67-92 | Entries that are neither on the way to the destination nor below it are neither created nor changed |
| Snapshot.ExitCode | scripts/generate-static.js:53-63 | The process ends with 0 or 1, and with 0 exactly for a finished run |
| Snapshot.Prepare | scripts/generate-static.js:14-20 | After a successful preparation `dist/static` exists, nothing is deleted, and nothing outside `dist/static` changes |
| Snapshot.Publish | scripts/generate-static.js:41-49 | The three writes succeed exactly when the output directory exists and none of the three targets is a directory. `index.html` then holds the rewritten page, `.nojekyll` is empty, `CNAME` holds `belamigw.com`, and nothing else changes |
| Snapshot.WriteSite | scripts/generate-static.js:41-49 | The three writes succeed exactly when the output directory exists and none of the targets is a directory, and then set just those three entries |
| Snapshot.Generate | scripts/generate-static.js:14-63 | A finished run needed a fetched page, and holds the rewritten page, an empty `.nojekyll` and the `CNAME`, with nothing outside `dist/static` changed. The run stops at the fetch exactly when the copy worked and the fetch failed |
| SnapshotFacts.PrepareEffect | scripts/generate-static.js:14-20 | After the preparation, every public file is mirrored under `dist/static`, a second copy would change nothing, and nothing away from the output directory changed |
| SnapshotFacts.SiteContents | scripts/generate-static.js:14-49 | A finished run holds the rewritten page, the empty `.nojekyll`, the `CNAME`, and every public file other than those three, while everything away from `dist/static` is as before |
| SnapshotFacts.FetchFailureExitsWithOne | scripts/generate-static.js:60-63 | A failed fetch after a good copy leaves the copied tree without a page and exits with 1 |
| SnapshotFacts.ExitCodeMeaning | scripts/generate-static.js:14-63 | The exit code is 0 exactly when the copy, the fetch and all three writes succeeded |
| SnapshotFacts.GenerateIdempotent | scripts/generate-static.js:14-49 | Running the snapshot again over a finished site, with the same public tree and page, finishes with the same site |
| SnapshotFacts.PrepareAgain | scripts/generate-static.js:14-20 | Over a finished site, the preparation skips the `mkdir` and only puts the public files back |
| SnapshotFacts.PublishAgain | scripts/generate-static.js:41-49 | Publishing over the re-copied site gives the finished site back |
| SnapshotFacts.ReadyAgain | scripts/generate-static.js:41-49 | The re-copied site still accepts the three writes |
| SnapshotFacts.Absorb | scripts/generate-static.js:41-49 | Files put back where they already were vanish under the three writes |
| SnapshotFacts.PublishUpdates | scripts/generate-static.js:41-49 | A successful publish is the three files written in order |
| PageRender.Anchors | src/index.tsx:218-223 | The links wrapper holds one anchor per truthy link and no other: a GitHub anchor first exactly when `githubLink` is truthy, and a Demo anchor last exactly when `demoLink` is truthy, each pointing at its link |
| PageRender.CardSlots | src/index.tsx:190-224 | A card has the eight template positions |
| PageRender.RenderProject | src/index.tsx:190-224 | A card's blocks are in template order, with no kind repeated; `PageRender.CardContents` says which blocks appear |
| PageRender.RenderProjects | src/index.tsx:189-225 | One card per project, in list order: card `i` is the card of project `i` at position `i` |
| PageRender.ProjectHeadings | src/index.tsx:189-191 | The heading of card `i` is `"(" + toRoman(i + 1) + ") " + title` of project `i` |
| PageRender.CardContents | src/index.tsx:190-224 | Looking up any kind in a rendered card finds exactly what the template emits for it |
| PageRender.PresentInOrder | src/index.tsx:190-224 | The filled positions, taken in order, give blocks in template order |
| PageRender.FindPresent | src/index.tsx:190-224 | In a card whose positions are ranked, the lookup of a kind finds the block at that kind's position |
| PageRender.CardSlotsRanked | src/index.tsx:190-224 | Each position of a card holds, if anything, a block of its own kind |
| PageRender.SlotKind | src/index.tsx:190-224 | What the template emits for a kind is a block of that kind |
| PageRender.ConditionalBlocks | src/index.tsx:191-223 | The image, acknowledgment and note blocks are emitted exactly when their field is truthy, and the feature list exactly when `features` is present. The heading, description, tech stack and links blocks are always there, with their contents |
| PageRender.EmptyFeaturesStillRendered | src/index.tsx:200-205 | An empty `features` list still yields an empty feature list |
| PageRender.EmptyContainersRendered | src/index.tsx:213-223 | An empty tech list and two falsy links still yield an empty tech stack and an empty links wrapper |
| PageRender.LabelNumber | src/index.tsx:191 | The numeral in a card's label reads back as the card's 1-based position |
| PageRender.LabelsDistinct | src/index.tsx:189-191 | Cards at different positions never share a label, whatever their titles |
| PageRender.NumeralPrefix | src/index.tsx:191 | Labels with different numerals differ, because a numeral never contains `)` |
| PageRender.RenderBio | src/index.tsx:176-177 | The bio gives at least one paragraph. The paragraphs, in order and joined by a blank line, give the bio back. No paragraph holds a blank line, and each but the last ends at the first blank line after its start, so `split` cuts at the leftmost match |
| PageRender.BioThreeNewlines | src/index.tsx:176-177 | With three newlines in a row, the first two end the paragraph and the third starts the next: `"a\n\n\nb"` gives `a` and `\nb` |
| PageRender.BioSingleParagraph | src/index.tsx:176-177 | A bio without a blank line is one paragraph |
| PageRender.RenderSkills | src/index.tsx:233-238 | One skill item per skill, in order: each carries the skill's name, and its icon classes are the skill's icon followed by ` skill-icon` |
| PageRender.SkillsRoundTrip | src/index.tsx:233-238 | Reading the grid back, each item's name and its icon classes without the trailing `skill-icon`, gives the skill list, in order |
| Tabs.FirstPanel | public/javascripts/main.js:84 | `querySelector('.tab-' + name)` finds the first panel with the class, or reports that there is none |
| Tabs.FirstActive | public/javascripts/main.js:103 | `querySelector('.tab-button.active')` finds the first active button, or reports that there is none |
| Tabs.Click | public/javascripts/main.js:71-99 | After a click, exactly the clicked button is active. The panel `.tab-<name>`, if any, is the only active and shown panel, every other panel is hidden, and the tabs and classes are unchanged |
| Tabs.HideInactive | public/javascripts/contact-alternative.js:169-173 | At start-up, every panel without `active` is hidden and the others keep their display |
| Tabs.LastClickWins | javascripts/main.js:33-61 | The state after a click depends only on the button clicked, not on the state before |
| Tabs.FirstPanelClassesOnly | javascripts/main.js:45-47 | The panel lookup depends only on the panels' classes |
| Tabs.ClickIdempotent | public/javascripts/main.js:71-99 | Clicking the same button twice is the same as clicking it once |
| Tabs.ClickActiveIsNoOp | public/javascripts/contact-alternative.js:176-204 | On a settled page, clicking the active tab changes nothing |
| Tabs.ClicksSettle | public/javascripts/main.js:71-99 | Any non-empty run of clicks ends settled on the last button clicked |
| Tabs.Init | public/javascripts/main.js:58-111 | Start-up with buttons leaves exactly the first active button, or else the first button, active; the only active panel is the first with that button's tab class, shown, and every other panel is hidden |
| Tabs.InitSettles | javascripts/main.js:65-72 | Start-up with buttons settles on the first active button, or on the first button when none is active |
| Tabs.InitWithoutButtons | public/javascripts/contact-alternative.js:207-215 | With no buttons, start-up only hides the inactive panels |
| Tabs.InitIdempotent | public/javascripts/main.js:103-110 | Running start-up again on its own result changes nothing, with or without tab buttons |
| ContactForm.NamedInputs | src/index.tsx:259-277 | `sendForm` sends the four named inputs `from_name`, `email_id`, `subject` and `message`, each with its field's value |
| PublicForm.Begin | public/javascripts/main.js:22-25 | On submit, the button is disabled with the "Sending..." label, and the status text and class are cleared |
| PublicForm.Settle | public/javascripts/main.js:37-53 | Success shows the success message and resets the form. Failure shows the error message and keeps the fields. Either way the button is enabled again with its label |
| PublicForm.Submit | public/javascripts/main.js:14-54 | With the SDK loaded, one `send` call is made whose parameters are the four fields under the form's input names and the outcome is shown as above. Without it, no call is made and the button stays disabled |
| PublicForm.SubmitNeedsForm | public/javascripts/main.js:10-14 | A submit changes the page only when `#contact-form` existed at load, and calls the relay exactly when the form existed and the SDK is on the page |
| PublicForm.PayloadCarriesFields | public/javascripts/main.js:28-36 | The fields can be read back from the parameters of the single call |
| PublicForm.RetryAfterFailure | public/javascripts/main.js:44-53 | After a failure the form can be submitted again with the same fields, and a second failure leaves the page as the first did |
| PublicForm.SubmitPhases | public/javascripts/main.js:22-53 | A submit passes through "submitting" and ends "succeeded" or "failed" according to the relay |
| PublicForm.MissingSdkStrandsButton | public/javascripts/main.js:22-36 | Without the SDK, the button is left disabled with the spinner |
| LegacyForm.Payload | javascripts/main.js:89-94 | The parameters have exactly the keys `name`, `email`, `subject` and `message` |
| LegacyForm.Begin | javascripts/main.js:83-86 | On submit, the button is disabled and relabelled and the status text cleared, while the status class is kept |
| LegacyForm.Settle | javascripts/main.js:97-122 | Success shows the success message, resets the form and restores the button. Failure shows the error message, keeps the fields and restores the button |
| LegacyForm.Submit | javascripts/main.js:76-123 | Exactly one `send` call is made, and the outcome is shown as above |
| LegacyForm.SubmitNeedsSdkAndForm | javascripts/main.js:8-17 | A submit does anything only when the SDK was loaded, since the unguarded `init` throws otherwise, and the form existed at load |
| LegacyForm.ClassSurvivesBegin | javascripts/main.js:84-86 | While a new message is on its way, the error class of an earlier failure stays on the empty status line, unlike in the other script |
| LegacyForm.AgreesWithPublicScript | javascripts/main.js:76-123 | Once settled, this script leaves the page as `public/javascripts/main.js` does. The only difference is the key names the fields are sent under |
| AltForm.SetLoading | public/javascripts/contact-alternative.js:153-161 | The button is disabled with the spinner while loading, and enabled with "Send Message" otherwise |
| AltForm.ShowSuccess | public/javascripts/contact-alternative.js:124-131 | Shows the message with the success class and puts the button at rest |
| AltForm.ShowError | public/javascripts/contact-alternative.js:134-141 | Shows the message with the error class and puts the button at rest |
| AltForm.ClearStatus | public/javascripts/contact-alternative.js:144-150 | Empties the status and resets its class to `form-status` |
| AltForm.Init | public/javascripts/contact-alternative.js:17-35 | A missing SDK shows "Email service not available...", and an `init` that throws shows "Email service initialization failed...". Handlers are attached exactly when the SDK initialised and the form exists |
| AltForm.OnInput | public/javascripts/contact-alternative.js:48-57 | Typing clears a non-empty status and resets its class to `form-status`; an empty status is left as it is |
| AltForm.Payload | public/javascripts/contact-alternative.js:73-79 | The first attempt sends the four named inputs plus `timestamp` |
| AltForm.ErrorMessage | public/javascripts/contact-alternative.js:110-116 | The final error is "Sorry, there was an error sending your message." with " Error: " and the error's text appended exactly when that text is truthy |
| AltForm.Begin | public/javascripts/contact-alternative.js:69-70 | On submit, the button is loading and the status is cleared |
| AltForm.OnSendSettled | public/javascripts/contact-alternative.js:84-96 | The chain is done exactly when `send` succeeded, and then shows the success text and class, resets the fields and restores the button. A failed `send` leaves the page as it was and hands over to `sendForm` |
| AltForm.OnSendFormSettled | public/javascripts/contact-alternative.js:100-121 | `sendForm` ends in success with a reset form, or in the composed error with the fields kept; then the button is at rest |
| AltForm.Submit | public/javascripts/contact-alternative.js:61-121 | One or two calls: `send` with the timestamped parameters read at submit time, then one `sendForm` exactly when `send` failed, with the inputs as they stand at that moment. The outcome is shown on the inputs as they stand when `sendForm` settles, since they stay editable while it is pending. The button is at rest at the end |
| AltForm.DisabledUntilFallbackSettles | public/javascripts/contact-alternative.js:69-96 | Between the failed `send` and the end of `sendForm`, the button stays disabled with the spinner |
| AltForm.SuccessOnEitherAttempt | public/javascripts/contact-alternative.js:84-106 | Whichever attempt delivered, and whatever was typed meanwhile, the page shows the same success with a reset form |
| AltForm.SubmitOutcome | public/javascripts/contact-alternative.js:61-121 | The page shows success exactly when either attempt delivered, and only a double failure keeps the inputs, as they stand when `sendForm` settles, including edits made while it was pending |
| AltForm.FallbackReadsLiveForm | public/javascripts/contact-alternative.js:73-102 | `send` carries the inputs at submit time and the time; `sendForm` carries the inputs when `send` failed, without the time. The two carry the same fields exactly when nothing was edited in between |
| AltForm.OnInputIdempotent | public/javascripts/contact-alternative.js:48-57 | A second keystroke clears no more than the first |
| AltForm.NoRelayNoHandler | public/javascripts/contact-alternative.js:17-35 | Without a usable SDK, no handler is attached, the status shows an error and the button is at rest |

Some definitions that follow the source directly carry no contract of their own, and the rows of the lemmas about them state what they mean:

- `PageRender.Label` is covered by `PageRender.ProjectHeadings`, `LabelNumber` and `LabelsDistinct`.
- `PageRender.Slot` is covered by `PageRender.CardContents`, `SlotKind` and `ConditionalBlocks`.
- `PublicForm.Load` and `PublicForm.OnSubmit` are covered by `PublicForm.SubmitNeedsForm`.
- `LegacyForm.Load` and `LegacyForm.OnSubmit` are covered by `LegacyForm.SubmitNeedsSdkAndForm`.

## Left out

- Express setup, routes, `app.listen` and the literal page data in `src/index.tsx` are not modelled: they are HTTP plumbing and inert data.
- The exact HTML, CSS and whitespace of the template are not modelled. A card is a sequence of abstract blocks, the bio a sequence of paragraphs and the skills grid a sequence of items.
- Roman.ToRoman: the source's `num` is an IEEE double, and the model uses exact integers. They agree for integers up to 2^53. Above that the subtractions are inexact, and from 2^64 `num -= 1000` no longer changes `num`, so the loop appends "M" until it fails. The callers pass only `index + 1`. A fraction would leave a remainder that the model does not represent.
- Server start-up, the two-second wait, `fetch` and `server.close` are not modelled. The fetched page, or the reason the fetch failed, is an input. Finishing with `server.close` and finishing with `process.exit(0)` both count as exit code 0.
- Snapshot.Generate: when an `fs` call throws partway, the model reports the error but not the partial state left on disk. The process ends in that case anyway.
- FileTree: `readdirSync` order is an input (the listing as given). UTF-8 encoding of written text, file modes and symbolic links are not modelled.
- Tabs.FirstPanel searches only the `.tab-content` panels. The source's `document.querySelector('.tab-' + name)` searches the whole document. The model also reads `'.tab-' + name` as a single class, so it assumes every tab name is a CSS identifier, as the page's four names (home, projects, skills, contact) are. A name holding whitespace, `.`, `,` or `#` would select other elements. One holding `[` or `:` would make `querySelector` throw after the click handler has already deactivated everything.
- Tabs: the animation started on the shown panel (300 ms, opacity and translate, ease-out) is a visual effect and is not modelled.
- Console logging in every script is not modelled.
- The email relay (EmailJS `init`, `send`, `sendForm`) is not modelled. How each call settles is an input, and a rejection carries the error's text, if any.
- `#submit-button` and `#form-status` are assumed present, because the page always renders both. `public/javascripts/main.js` and `javascripts/main.js` use them without a null check, so a missing one would throw in the submit handler. The null checks in the helpers of `public/javascripts/contact-alternative.js` are not modelled.
- Snapshot.Prepare: the listing of `public` is an input, so the model cannot represent a missing or unreadable `public` directory or subdirectory. In the source, `readdirSync` or `statSync` then throws ENOENT or EACCES, uncaught at top level. The process ends with exit code 1 after `dist/static` has been created.
- PublicForm.Submit and LegacyForm.Submit: begin and settle are composed with no edit in between. The call's parameters are read before the call, so an edit made while it is pending changes only which values the settled page keeps after a failure; `Settle` keeps whatever inputs it is given.
- AltForm.Payload: the timestamp is an input rather than `new Date().toISOString()`.
- public/javascripts/clear-cache.js is not part of this model: it swaps script tags based on the clock.
- javascripts/scale.fix.js is not part of this model: it reads the viewport height.
- No submission timeout is modelled, because none exists in the code.
- Empty containers are not suppressed: the code renders an empty feature list, and always renders the tech stack and the links wrapper. The model does the same.
- Start-up with no tab buttons still hides the inactive panels (Tabs.InitWithoutButtons), as the code does.

=== FILE: altform.dfy ===
/** The contact form of public/javascripts/contact-alternative.js: a
    guarded start-up, a status line that clears as the visitor types, and
    a second attempt with `sendForm` when `send` fails. */
module AltForm {
  import opened Wrappers
  import opened ContactForm
  import Text

  /** The relay's SDK at start-up: not on the page, on the page but its
      `init` throws, or initialised. */
  datatype Sdk = Missing | InitThrows | Initialised

  const NotAvailableText: string := "Email service not available. Please try again later or contact directly via email."
  const InitFailedText: string := "Email service initialization failed. Please try again later."
  const FailedPrefix: string := "Sorry, there was an error sending your message."
  const ErrorLabel: string := " Error: "

  /** `setSubmitButtonLoading`. */
  function SetLoading(ui: Ui, loading: bool): (r: Ui)
    ensures r.button == if loading then Loading else Ready
    ensures r.fields == ui.fields && r.status == ui.status
  {
    ui.(button := Button(loading, if loading then SendingHtml else SendHtml))
  }

  /** `showFormSuccess`: the message with the success class, and the
      button at rest. */
  function ShowSuccess(ui: Ui, message: string): (r: Ui)
    ensures r.status == Status(message, SuccessClass) && r.button == Ready && r.fields == ui.fields
  {
    SetLoading(ui.(status := Status(message, SuccessClass)), false)
  }

  /** `showFormError`: the message with the error class, and the button
      at rest. */
  function ShowError(ui: Ui, message: string): (r: Ui)
    ensures r.status == Status(message, ErrorClass) && r.button == Ready && r.fields == ui.fields
  {
    SetLoading(ui.(status := Status(message, ErrorClass)), false)
  }

  /** `clearFormStatus`. */
  function ClearStatus(ui: Ui): (r: Ui)
    ensures r.status == Status("", StatusClass) && r.button == ui.button && r.fields == ui.fields
  {
    ui.(status := Status("", StatusClass))
  }

  /** `initEmailJS`: the start-up state of the page, and whether the
      submit and input handlers get attached. */
  function Init(ui: Ui, sdk: Sdk, formExists: bool): (r: (Ui, bool))
    ensures r.1 <==> sdk == Initialised && formExists
    ensures sdk == Missing ==> r.0 == ShowError(ui, NotAvailableText)
    ensures sdk == InitThrows ==> r.0 == ShowError(ui, InitFailedText)
    ensures sdk == Initialised ==> r.0 == ui
  {
    match sdk
    case Missing => (ShowError(ui, NotAvailableText), false)
    case InitThrows => (ShowError(ui, InitFailedText), false)
    case Initialised => (ui, formExists)
  }

  /** The `input` listener on every input and textarea: a status line
      with text is cleared and its class reset; an empty one is left
      alone, class and all. */
  function OnInput(ui: Ui): (r: Ui)
    ensures r.status.text == ""
    ensures ui.status.text != "" ==> r.status.cls == StatusClass
    ensures ui.status.text == "" ==> r == ui
    ensures r.fields == ui.fields && r.button == ui.button
  {
    if ui.status.text != "" then ui.(status := Status("", StatusClass)) else ui
  }

  /** The parameters of the first attempt: the named inputs and the time
      of the submit, an ISO 8601 string supplied by the caller. */
  function Payload(f: Fields, timestamp: string): (m: map<string, string>)
    ensures m.Keys == NamedInputs(f).Keys + {"timestamp"}
    ensures forall k :: k in NamedInputs(f) ==> m[k] == NamedInputs(f)[k]
    ensures m["timestamp"] == timestamp
  {
    NamedInputs(f)["timestamp" := timestamp]
  }

  /** The message shown when both attempts fail: the error's text is
      added only when there is one. */
  function ErrorMessage(text: Option<string>): (m: string)
    ensures Text.StartsWith(m, FailedPrefix)
    ensures text.Some? && text.value != "" <==> |m| > |FailedPrefix|
    ensures text.Some? && text.value != "" ==> m[|FailedPrefix|..] == ErrorLabel + text.value
  {
    if text.Some? && text.value != "" then FailedPrefix + ErrorLabel + text.value else FailedPrefix
  }

  /** Where the chain stands once `send` has settled. */
  datatype AfterSend = Done(ui: Ui) | Retrying(ui: Ui)

  /** Before the first call: the button loading and the status cleared. */
  function Begin(ui: Ui): (r: Ui)
    ensures r.button == Loading && r.status == Status("", StatusClass) && r.fields == ui.fields
  {
    ClearStatus(SetLoading(ui, true))
  }

  /** `send` settled: success is shown and the form reset; a failure
      touches nothing and hands over to `sendForm`. */
  function OnSendSettled(ui: Ui, relay: Relay): (r: AfterSend)
    ensures r.Done? <==> relay.Delivered?
    ensures relay.Delivered? ==> r.ui.status == Status(SentText, SuccessClass) && r.ui.fields == Blank && r.ui.button == Ready
    ensures relay.Rejected? ==> r.ui == ui
  {
    match relay
    case Delivered => Done(ShowSuccess(ui, SentText).(fields := Blank))
    case Rejected(_) => Retrying(ui)
  }

  /** `sendForm` settled: success as before, or the composed error
      message; `finally` then puts the button at rest. */
  function OnSendFormSettled(ui: Ui, relay: Relay): (r: Ui)
    ensures r.button == Ready
    ensures relay.Delivered? ==> r.status == Status(SentText, SuccessClass) && r.fields == Blank
    ensures relay.Rejected? ==> r.status == Status(ErrorMessage(relay.text), ErrorClass) && r.fields == ui.fields
  {
    var settled := match relay
      case Delivered => ShowSuccess(ui, SentText).(fields := Blank)
      case Rejected(text) => ShowError(ui, ErrorMessage(text));
    SetLoading(settled, false)
  }

  /** One submit, given the submit time, how each attempt would settle,
      `live`: the inputs as the visitor has left them when `send` settles,
      and `final`: the inputs when `sendForm` settles. Only the button is
      disabled meanwhile, so the inputs stay editable: `sendForm` reads the
      form as it is when `send` fails, and its outcome is shown on the form
      as it is when it settles. The second attempt is only made when the
      first fails. */
  function Submit(ui: Ui, timestamp: string, first: Relay, live: Fields, second: Relay, final: Fields): (s: Submission)
    ensures 1 <= |s.calls| <= 2
    ensures s.calls[0] == Send(ServiceId, TemplateId, Payload(ui.fields, timestamp))
    ensures |s.calls| == 2 <==> first.Rejected?
    ensures |s.calls| == 2 ==> s.calls[1] == SendForm(ServiceId, TemplateId, NamedInputs(live))
    ensures s.ui.button == Ready
  {
    var begun := Begin(ui);
    var send := Send(ServiceId, TemplateId, Payload(ui.fields, timestamp));
    match OnSendSettled(begun.(fields := live), first)
    case Done(u) => Submission(u, [send])
    case Retrying(u) =>
      Submission(OnSendFormSettled(u.(fields := final), second), [send, SendForm(ServiceId, TemplateId, NamedInputs(live))])
  }

  /** Between the failed `send` and the settling of `sendForm` the button
      stays disabled, with the spinner. */
  lemma DisabledUntilFallbackSettles(ui: Ui, text: Option<string>)
    ensures OnSendSettled(Begin(ui), Rejected(text)).Retrying?
    ensures OnSendSettled(Begin(ui), Rejected(text)).ui.button == Loading
    ensures PhaseOf(OnSendSettled(Begin(ui), Rejected(text)).ui) == Submitting
  {
  }

  /** The page shows the same success whichever attempt delivered it,
      whatever was typed meanwhile. */
  lemma SuccessOnEitherAttempt(ui: Ui, timestamp: string, text: Option<string>, live: Fields, live': Fields,
                               second: Relay, final: Fields, final': Fields)
    ensures Submit(ui, timestamp, Delivered, live, second, final).ui == Submit(ui, timestamp, Rejected(text), live', Delivered, final').ui
    ensures Submit(ui, timestamp, Delivered, live, second, final).ui == Ui(Blank, Status(SentText, SuccessClass), Ready)
  {
  }

  /** The outcome the page shows: success iff either attempt delivered;
      the inputs, as they stand when `sendForm` settles, survive only a
      double failure. */
  lemma SubmitOutcome(ui: Ui, timestamp: string, first: Relay, live: Fields, second: Relay, final: Fields)
    ensures PhaseOf(Submit(ui, timestamp, first, live, second, final).ui) ==
      if first.Delivered? || second.Delivered? then Succeeded else Failed
    ensures Submit(ui, timestamp, first, live, second, final).ui.fields ==
      if first.Delivered? || second.Delivered? then Blank else final
  {
    if first.Rejected? && second.Rejected? {
      var m := ErrorMessage(second.text);
      assert Submit(ui, timestamp, first, live, second, final).ui.status == Status(m, ErrorClass);
    }
  }

  /** The first attempt carries the inputs at submit time, the fallback
      those when `send` failed; the two carry the same four fields exactly
      when nothing was edited in between, and only the first adds the
      time. */
  lemma FallbackReadsLiveForm(ui: Ui, timestamp: string, text: Option<string>, live: Fields, second: Relay, final: Fields)
    ensures var calls := Submit(ui, timestamp, Rejected(text), live, second, final).calls;
      && FromNamedInputs(calls[0].params) == Some(ui.fields)
      && FromNamedInputs(calls[1].params) == Some(live)
      && "timestamp" in calls[0].params && "timestamp" !in calls[1].params
      && (FromNamedInputs(calls[0].params) == FromNamedInputs(calls[1].params) <==> live == ui.fields)
  {
    NamedInputsRoundTrip(ui.fields);
    NamedInputsRoundTrip(live);
  }

  /** Typing twice clears no more than typing once. */
  lemma OnInputIdempotent(ui: Ui)
    ensures OnInput(OnInput(ui)) == OnInput(ui)
  {
  }

  /** When the SDK is not ready the visitor is told so, the button is at
      rest and nothing will submit. */
  lemma NoRelayNoHandler(ui: Ui, sdk: Sdk, formExists: bool)
    requires sdk != Initialised
    ensures !Init(ui, sdk, formExists).1
    ensures PhaseOf(Init(ui, sdk, formExists).0) == Failed
    ensures Init(ui, sdk, formExists).0.button == Ready
  {
  }
}

=== FILE: contactform.dfy ===
/** The contact form shared by the three client scripts: its four fields,
    the status line under it and the submit button, the relay's answer and
    the calls made to the relay. The relay (EmailJS) is not modelled: what
    it answers is an input. */
module ContactForm {
  import opened Wrappers

  /** The values of the inputs `#name`, `#email`, `#subject` and
      `#message`. */
  datatype Fields = Fields(name: string, email: string, subject: string, message: string)

  /** What `form.reset()` restores: the markup gives the inputs no
      initial value. */
  const Blank: Fields := Fields("", "", "", "")

  /** `#form-status`: its text and its class attribute. */
  datatype Status = Status(text: string, cls: string)

  const StatusClass: string := "form-status"
  const SuccessClass: string := "form-status success"
  const ErrorClass: string := "form-status error"

  const SentText: string := "Your message has been sent successfully!"

  /** `#submit-button`: whether it is disabled, and its inner HTML. */
  datatype Button = Button(disabled: bool, html: string)

  const SendingHtml: string := "<i class=\"fas fa-spinner fa-spin\"></i> Sending..."
  const SendHtml: string := "<i class=\"fas fa-paper-plane\"></i> Send Message"

  /** The button while a message is on its way, and at rest. */
  const Loading: Button := Button(true, SendingHtml)
  const Ready: Button := Button(false, SendHtml)

  datatype Ui = Ui(fields: Fields, status: Status, button: Button)

  /** How the relay settles one call: delivered, or rejected with the
      error's `text` (`None` when the error or its text is absent). */
  datatype Relay = Delivered | Rejected(text: Option<string>)

  const ServiceId: string := "service_8lomhfn"
  const TemplateId: string := "template_fyodjdo"

  /** A call to the relay: `emailjs.send` with template parameters, or
      `emailjs.sendForm` with the form, which sends its named inputs. */
  datatype Call =
    | Send(service: string, template: string, params: map<string, string>)
    | SendForm(service: string, template: string, params: map<string, string>)

  /** The state a submit leaves the page in, and the calls it made. */
  datatype Submission = Submission(ui: Ui, calls: seq<Call>)

  /** The page once its script has run on `DOMContentLoaded`: the form's
      state and whether a submit handler got attached to it. */
  datatype Page = Page(ui: Ui, handler: bool)

  /** The stage a submit has reached, as the page shows it: the button is
      disabled only while a message is on its way, and the status class
      tells the outcome once it has settled. */
  datatype Phase = Idle | Submitting | Succeeded | Failed

  function PhaseOf(ui: Ui): (p: Phase)
    ensures p == Submitting <==> ui.button.disabled
    ensures p == Succeeded <==> !ui.button.disabled && ui.status.cls == SuccessClass
    ensures p == Failed <==> !ui.button.disabled && ui.status.cls == ErrorClass
  {
    if ui.button.disabled then Submitting
    else if ui.status.cls == SuccessClass then Succeeded
    else if ui.status.cls == ErrorClass then Failed
    else Idle
  }

  /** The named inputs of the form, as `sendForm` sends them: the markup
      names them `from_name`, `email_id`, `subject` and `message`. */
  function NamedInputs(f: Fields): (m: map<string, string>)
    ensures m.Keys == {"from_name", "email_id", "subject", "message"}
    ensures m["from_name"] == f.name && m["email_id"] == f.email
    ensures m["subject"] == f.subject && m["message"] == f.message
  {
    map["from_name" := f.name, "email_id" := f.email, "subject" := f.subject, "message" := f.message]
  }

  /** The fields read back from a map keyed by input name. */
  function FromNamedInputs(m: map<string, string>): Option<Fields> {
    if "from_name" in m && "email_id" in m && "subject" in m && "message" in m then
      Some(Fields(m["from_name"], m["email_id"], m["subject"], m["message"]))
    else None
  }

  /** The named inputs determine the fields. */
  lemma NamedInputsRoundTrip(f: Fields)
    ensures FromNamedInputs(NamedInputs(f)) == Some(f)
  {
  }
}

=== FILE: filetree.dfy ===
/** `copyDirectory` of scripts/generate-static.js over an abstract file
    system: a map from paths to entries, and a source directory given as
    its listing, in the order `readdirSync` returns it. */
module FileTree {
  import opened Wrappers

  type Byte = bv8

  /** A path is the sequence of its names; the empty path is the root,
      which always exists and is never a key. */
  type Path = seq<string>

  /** What a file holds: bytes copied as they are, or text written with
      `writeFileSync` (stored in its UTF-8 encoding, which is not modelled). */
  datatype Content = Raw(bytes: seq<Byte>) | Utf8(text: string)

  datatype Entry = File(content: Content) | Dir

  type Fs = map<Path, Entry>

  /** What a failing `fs` call throws. */
  datatype FsError =
    | NotADirectory(path: Path)
    | IsADirectory(path: Path)
    | AlreadyExists(path: Path)
    | NoSuchDirectory(path: Path)

  /** A source directory: its listing, each child a file with its content
      or a directory with its own listing. */
  datatype Node = FileNode(content: Content) | DirNode(children: seq<Child>)
  datatype Child = Child(name: string, node: Node)

  predicate IsPrefix(p: Path, q: Path) {
    |p| <= |q| && q[..|p|] == p
  }

  function Parent(p: Path): Path
    requires |p| > 0
  {
    p[..|p| - 1]
  }

  /** The root, or a key holding a directory. */
  predicate IsDir(fs: Fs, p: Path) {
    p == [] || (p in fs && fs[p].Dir?)
  }

  /** A file sits at `q`, which is `p` or one of its ancestors. */
  predicate FileOnWay(fs: Fs, q: Path, p: Path) {
    q in fs && fs[q].File? && q != [] && IsPrefix(q, p)
  }

  /** `mkdirSync(p, { recursive: true })`: creates every missing
      directory on the way to `p`. It fails exactly when a file is in the
      way: with EEXIST when `p` itself is that file, with ENOTDIR when an
      ancestor of `p` is. */
  function MakeDirs(fs: Fs, p: Path): (r: Result<Fs, FsError>)
    ensures r.Success? ==> IsDir(r.value, p)
    ensures r.Success? ==> fs.Keys <= r.value.Keys
    ensures r.Success? ==> forall k :: k in fs ==> r.value[k] == fs[k]
    ensures r.Success? ==> forall k :: k in r.value && k !in fs ==> r.value[k] == Dir && IsPrefix(k, p)
    ensures r.Failure? <==> exists q :: FileOnWay(fs, q, p)
    ensures r.Failure? && r.error.NotADirectory? ==> FileOnWay(fs, r.error.path, p) && r.error.path != p
    ensures r.Failure? ==> r.error.NotADirectory? || r.error == AlreadyExists(p)
    ensures r == Failure(AlreadyExists(p)) <==> FileOnWay(fs, p, p) && forall q :: FileOnWay(fs, q, p) ==> q == p
    decreases |p|
  {
    if |p| == 0 then Success(fs)
    else
      var up := Parent(p);
      assert forall q :: IsPrefix(q, up) ==> IsPrefix(q, p);
      assert forall q :: IsPrefix(q, p) && q != p ==> IsPrefix(q, up);
      match MakeDirs(fs, up)
      case Failure(e) =>
        var q := if e.NotADirectory? then e.path else up;
        assert FileOnWay(fs, q, p) && q != p;
        Failure(NotADirectory(q))
      case Success(fs1) =>
        forall q | q in fs && q != [] && IsPrefix(q, p) && q != p
          ensures !fs[q].File?
        {
          assert IsPrefix(q, up) && !FileOnWay(fs, q, up);
        }
        if p !in fs1 then Success(fs1[p := Dir])
        else if fs1[p].Dir? then Success(fs1)
        else
          assert FileOnWay(fs, p, p);
          Failure(AlreadyExists(p))
  }

  /** `copyFileSync(source, target)` and `writeFileSync(target, data)`:
      fail when the target's directory is missing or is a file, or when
      the target is a directory; otherwise the target holds the content,
      created or overwritten. */
  function WriteFile(fs: Fs, target: Path, content: Content): (r: Result<Fs, FsError>)
    requires |target| > 0
    ensures r.Success? <==> IsDir(fs, Parent(target)) && !IsDir(fs, target)
    ensures r.Success? ==> r.value == fs[target := File(content)]
  {
    var parent := Parent(target);
    if parent != [] && parent !in fs then Failure(NoSuchDirectory(parent))
    else if parent != [] && fs[parent].File? then Failure(NotADirectory(parent))
    else if target in fs && fs[target].Dir? then Failure(IsADirectory(target))
    else Success(fs[target := File(content)])
  }

  /** `copyDirectory(source, dest)`: create `dest` if it does not exist,
      then copy the listing into it. */
  function CopyDirectory(children: seq<Child>, dest: Path, fs: Fs): (r: Result<Fs, FsError>)
    ensures r.Success? ==> dest == [] || dest in r.value
    ensures r.Success? ==> fs.Keys <= r.value.Keys
    ensures r.Success? ==> forall k :: k in fs && !IsPrefix(dest, k) ==> r.value[k] == fs[k]
    decreases children, 1
  {
    if dest in fs || dest == [] then CopyChildren(children, dest, fs)
    else
      match MakeDirs(fs, dest)
      case Failure(e) => Failure(e)
      case Success(fs1) => CopyChildren(children, dest, fs1)
  }

  /** The loop over the listing: a directory is copied recursively, a
      file with `copyFileSync`; the first failure ends the copy. */
  function CopyChildren(children: seq<Child>, dest: Path, fs: Fs): (r: Result<Fs, FsError>)
    ensures r.Success? ==> fs.Keys <= r.value.Keys
    ensures r.Success? ==> forall k :: k in fs && !IsPrefix(dest, k) ==> r.value[k] == fs[k]
    decreases children, 0
  {
    if |children| == 0 then Success(fs)
    else
      var c := children[0];
      var below := dest + [c.name];
      ChildPrefix(dest, c.name);
      var step := match c.node
        case DirNode(sub) => CopyDirectory(sub, below, fs)
        case FileNode(content) => WriteFile(fs, below, content);
      match step
      case Failure(e) => Failure(e)
      case Success(fs1) => CopyChildren(children[1..], dest, fs1)
  }

  /** A path below a child of `dest` is below `dest`, and so is the child. */
  lemma ChildPrefix(dest: Path, name: string)
    ensures IsPrefix(dest, dest + [name])
    ensures forall k :: IsPrefix(dest + [name], k) ==> IsPrefix(dest, k)
  {
    assert (dest + [name])[..|dest|] == dest;
    forall k | IsPrefix(dest + [name], k) ensures IsPrefix(dest, k) {
      assert k[..|dest|] == (dest + [name])[..|dest|];
    }
  }

  /** The files a copy of the listing into `dest` writes, by target path;
      when two children write the same path the later one wins, as the
      later copy overwrites the earlier. */
  function Writes(children: seq<Child>, dest: Path): map<Path, Content>
    decreases children
  {
    if |children| == 0 then map[]
    else
      var c := children[0];
      var first := match c.node
        case DirNode(sub) => Writes(sub, dest + [c.name])
        case FileNode(content) => map[dest + [c.name] := content];
      first + Writes(children[1..], dest)
  }
}

/** Properties of the copy. */
module FileTreeFacts {
  import opened Wrappers
  import opened FileTree

  /** A file where a directory should be: EEXIST for the path itself,
      ENOTDIR for a path below it. */
  lemma MakeDirsErrors()
    ensures MakeDirs(map[["a"] := File(Raw([]))], ["a"]) == Failure(AlreadyExists(["a"]))
    ensures MakeDirs(map[["a"] := File(Raw([]))], ["a", "b"]) == Failure(NotADirectory(["a"]))
  {
    var fs := map[["a"] := File(Raw([]))];
    assert Parent(["a", "b"]) == ["a"];
    assert Parent(["a"]) == [];
    assert MakeDirs(fs, []) == Success(fs);
  }

  /** `k` lies on the way to `dest` or below it. */
  predicate Near(k: Path, dest: Path) {
    IsPrefix(k, dest) || IsPrefix(dest, k)
  }

  lemma NearChild(k: Path, dest: Path, name: string)
    requires Near(k, dest + [name])
    ensures Near(k, dest)
  {
    if IsPrefix(k, dest + [name]) && |k| <= |dest| {
      assert k == (dest + [name])[..|k|] == dest[..|k|];
    } else if IsPrefix(k, dest + [name]) {
      assert k == dest + [name];
      assert k[..|dest|] == dest;
    } else {
      assert k[..|dest|] == (dest + [name])[..|dest|] == dest;
    }
  }

  /** Every path the copy writes lies strictly below `dest`. */
  lemma {:induction false} WritesBelow(children: seq<Child>, dest: Path)
    ensures forall k :: k in Writes(children, dest) ==> IsPrefix(dest, k) && |k| > |dest|
    decreases children
  {
    if |children| > 0 {
      var c := children[0];
      WritesBelow(children[1..], dest);
      match c.node {
        case DirNode(sub) =>
          WritesBelow(sub, dest + [c.name]);
          forall k | k in Writes(sub, dest + [c.name])
            ensures IsPrefix(dest, k)
          {
            assert k[..|dest|] == (dest + [c.name])[..|dest|] == dest;
          }
        case FileNode(content) =>
          assert (dest + [c.name])[..|dest|] == dest;
      }
    }
  }

  /** What a successful copy does to the entries already there: none is
      removed, none changes kind, and only the written files change; every
      new key is near `dest` and is a written file or a directory. */
  lemma {:induction false} DirectoryEffect(children: seq<Child>, dest: Path, fs: Fs, f: Fs)
    requires CopyDirectory(children, dest, fs) == Success(f)
    ensures dest == [] || dest in f
    ensures fs.Keys <= f.Keys
    ensures forall k :: k in fs ==> f[k].Dir? == fs[k].Dir?
    ensures forall k :: k in fs && k !in Writes(children, dest) ==> f[k] == fs[k]
    ensures forall k :: k in f && k !in fs && k !in Writes(children, dest) ==> f[k] == Dir
    ensures forall k :: k in f && k !in fs ==> Near(k, dest)
    decreases children, 1
  {
    if dest in fs || dest == [] {
      ChildrenEffect(children, dest, fs, f);
    } else {
      var fs1 := MakeDirs(fs, dest).value;
      ChildrenEffect(children, dest, fs1, f);
    }
  }

  lemma {:induction false} ChildrenEffect(children: seq<Child>, dest: Path, fs: Fs, f: Fs)
    requires CopyChildren(children, dest, fs) == Success(f)
    ensures fs.Keys <= f.Keys
    ensures forall k :: k in fs ==> f[k].Dir? == fs[k].Dir?
    ensures forall k :: k in fs && k !in Writes(children, dest) ==> f[k] == fs[k]
    ensures forall k :: k in f && k !in fs && k !in Writes(children, dest) ==> f[k] == Dir
    ensures forall k :: k in f && k !in fs ==> Near(k, dest)
    decreases children, 0
  {
    if |children| > 0 {
      var c := children[0];
      var rest := children[1..];
      var w := Writes(children, dest);
      match c.node {
        case DirNode(sub) =>
          var fs1 := CopyDirectory(sub, dest + [c.name], fs).value;
          DirectoryEffect(sub, dest + [c.name], fs, fs1);
          ChildrenEffect(rest, dest, fs1, f);
          assert w == Writes(sub, dest + [c.name]) + Writes(rest, dest);
          forall k | k in f && k !in fs
            ensures Near(k, dest)
          {
            if k in fs1 {
              NearChild(k, dest, c.name);
            }
          }
        case FileNode(content) =>
          var t := dest + [c.name];
          var fs1 := fs[t := File(content)];
          ChildrenEffect(rest, dest, fs1, f);
          assert w == map[t := content] + Writes(rest, dest);
          assert t[..|dest|] == dest;
      }
    }
  }

  /** The mirror: after a successful copy every file of the source tree
      is at its path below `dest`, with its content. */
  lemma {:induction false} DirectoryMirror(children: seq<Child>, dest: Path, fs: Fs, f: Fs)
    requires CopyDirectory(children, dest, fs) == Success(f)
    ensures forall k :: k in Writes(children, dest) ==> k in f && f[k] == File(Writes(children, dest)[k])
    decreases children, 1
  {
    if dest in fs || dest == [] {
      ChildrenMirror(children, dest, fs, f);
    } else {
      ChildrenMirror(children, dest, MakeDirs(fs, dest).value, f);
    }
  }

  lemma {:induction false} ChildrenMirror(children: seq<Child>, dest: Path, fs: Fs, f: Fs)
    requires CopyChildren(children, dest, fs) == Success(f)
    ensures forall k :: k in Writes(children, dest) ==> k in f && f[k] == File(Writes(children, dest)[k])
    decreases children, 0
  {
    if |children| > 0 {
      var c := children[0];
      var rest := children[1..];
      match c.node {
        case DirNode(sub) =>
          var fs1 := CopyDirectory(sub, dest + [c.name], fs).value;
          DirectoryMirror(sub, dest + [c.name], fs, fs1);
          ChildrenMirror(rest, dest, fs1, f);
          ChildrenEffect(rest, dest, fs1, f);
          assert Writes(children, dest) == Writes(sub, dest + [c.name]) + Writes(rest, dest);
        case FileNode(content) =>
          var t := dest + [c.name];
          var fs1 := fs[t := File(content)];
          ChildrenMirror(rest, dest, fs1, f);
          ChildrenEffect(rest, dest, fs1, f);
          assert Writes(children, dest) == map[t := content] + Writes(rest, dest);
      }
    }
  }

  /** `g` has every key of `f`, each of the same kind. */
  predicate Compatible(g: Fs, f: Fs) {
    f.Keys <= g.Keys && forall k :: k in f ==> g[k].Dir? == f[k].Dir?
  }

  /** `g` with the written files put in. */
  function Overwrite(g: Fs, w: map<Path, Content>): Fs {
    map k | k in g.Keys + w.Keys :: if k in w then File(w[k]) else g[k]
  }

  lemma OverwriteTwice(g: Fs, w1: map<Path, Content>, w2: map<Path, Content>)
    ensures Overwrite(Overwrite(g, w1), w2) == Overwrite(g, w1 + w2)
  {
  }

  /** Copying again onto anything shaped like the result of a successful
      copy succeeds, and only puts the source's files in. */
  lemma {:induction false} DirectoryRerun(children: seq<Child>, dest: Path, fs: Fs, f: Fs, g: Fs)
    requires CopyDirectory(children, dest, fs) == Success(f)
    requires Compatible(g, f)
    ensures CopyDirectory(children, dest, g) == Success(Overwrite(g, Writes(children, dest)))
    decreases children, 2
  {
    DirectoryEffect(children, dest, fs, f);
    if dest in fs || dest == [] {
      ChildrenRerun(children, dest, fs, f, g);
    } else {
      ChildrenRerun(children, dest, MakeDirs(fs, dest).value, f, g);
    }
  }

  lemma {:induction false} ChildrenRerun(children: seq<Child>, dest: Path, fs: Fs, f: Fs, g: Fs)
    requires CopyChildren(children, dest, fs) == Success(f)
    requires Compatible(g, f)
    ensures CopyChildren(children, dest, g) == Success(Overwrite(g, Writes(children, dest)))
    decreases children, 1
  {
    if |children| == 0 {
      assert Overwrite(g, map[]) == g;
    } else {
      var c := children[0];
      var rest := children[1..];
      var first := match c.node
        case DirNode(sub) => Writes(sub, dest + [c.name])
        case FileNode(content) => map[dest + [c.name] := content];
      var fs1 := match c.node
        case DirNode(sub) => CopyDirectory(sub, dest + [c.name], fs).value
        case FileNode(content) => fs[dest + [c.name] := File(content)];
      var g1 := FirstRerun(children, dest, fs, f, g);
      ChildrenRerun(rest, dest, fs1, f, g1);
      OverwriteTwice(g, first, Writes(rest, dest));
      assert Writes(children, dest) == first + Writes(rest, dest);
    }
  }

  /** The first child of a rerun: it succeeds, puts in its files, and
      leaves a file system still shaped like the result. */
  lemma {:induction false} FirstRerun(children: seq<Child>, dest: Path, fs: Fs, f: Fs, g: Fs) returns (g1: Fs)
    requires |children| > 0
    requires CopyChildren(children, dest, fs) == Success(f)
    requires Compatible(g, f)
    ensures children[0].node.DirNode? ==>
      CopyDirectory(children[0].node.children, dest + [children[0].name], g) == Success(g1)
      && g1 == Overwrite(g, Writes(children[0].node.children, dest + [children[0].name]))
    ensures children[0].node.FileNode? ==>
      WriteFile(g, dest + [children[0].name], children[0].node.content) == Success(g1)
      && g1 == Overwrite(g, map[dest + [children[0].name] := children[0].node.content])
    ensures Compatible(g1, f)
    decreases children, 0
  {
    var c := children[0];
    var rest := children[1..];
    var d := dest + [c.name];
    match c.node {
      case DirNode(sub) =>
        var fs1 := CopyDirectory(sub, d, fs).value;
        ChildrenEffect(rest, dest, fs1, f);
        DirectoryEffect(sub, d, fs, fs1);
        DirectoryMirror(sub, d, fs, fs1);
        DirectoryRerun(sub, d, fs, fs1, g);
        g1 := Overwrite(g, Writes(sub, d));
      case FileNode(content) =>
        g1 := FileRerun(children, dest, fs, f, g);
    }
  }

  /** The first child of a rerun when it is a file: the write succeeds
      again, as the target's parent is still a directory and the target
      still a file. */
  lemma FileRerun(children: seq<Child>, dest: Path, fs: Fs, f: Fs, g: Fs) returns (g1: Fs)
    requires |children| > 0 && children[0].node.FileNode?
    requires CopyChildren(children, dest, fs) == Success(f)
    requires Compatible(g, f)
    ensures WriteFile(g, dest + [children[0].name], children[0].node.content) == Success(g1)
    ensures g1 == Overwrite(g, map[dest + [children[0].name] := children[0].node.content])
    ensures Compatible(g1, f)
  {
    var c := children[0];
    var d := dest + [c.name];
    assert Parent(d) == dest;
    assert WriteFile(fs, d, c.node.content).Success?;
    var fs1 := fs[d := File(c.node.content)];
    assert CopyChildren(children[1..], dest, fs1) == Success(f);
    ChildrenEffect(children[1..], dest, fs1, f);
    assert d in f && f[d].File?;
    assert dest == [] || (dest in f && f[dest].Dir?);
    assert IsDir(g, dest) && !IsDir(g, d);
    g1 := g[d := File(c.node.content)];
    assert g1 == Overwrite(g, map[d := c.node.content]);
  }

  /** Running the copy a second time changes nothing. */
  lemma CopyIdempotent(children: seq<Child>, dest: Path, fs: Fs, f: Fs)
    requires CopyDirectory(children, dest, fs) == Success(f)
    ensures CopyDirectory(children, dest, f) == Success(f)
  {
    DirectoryRerun(children, dest, fs, f, f);
    DirectoryMirror(children, dest, fs, f);
    assert Overwrite(f, Writes(children, dest)) == f;
  }

  /** Nothing outside `dest` and the directories leading to it changes. */
  lemma OutsideUntouched(children: seq<Child>, dest: Path, fs: Fs, f: Fs, k: Path)
    requires CopyDirectory(children, dest, fs) == Success(f)
    requires !Near(k, dest)
    ensures k in fs <==> k in f
    ensures k in fs ==> f[k] == fs[k]
  {
    DirectoryEffect(children, dest, fs, f);
    WritesBelow(children, dest);
  }
}

=== FILE: legacyform.dfy ===
/** The submit handler of javascripts/main.js (`initEmailJS` and
    `submitForm`), the older copy of the client script. */
module LegacyForm {
  import opened Wrappers
  import opened ContactForm
  import PublicForm

  const FailedText: string := "Sorry, there was an error sending your message. Please try again later."

  /** The template parameters, under keys of their own: `name` and
      `email` where the other scripts say `from_name` and `email_id`. */
  function Payload(f: Fields): (m: map<string, string>)
    ensures m.Keys == {"name", "email", "subject", "message"}
    ensures m["name"] == f.name && m["email"] == f.email
    ensures m["subject"] == f.subject && m["message"] == f.message
  {
    map["name" := f.name, "email" := f.email, "subject" := f.subject, "message" := f.message]
  }

  /** Before the call: the button is disabled and relabelled and the
      status text cleared, while the status class is left as it was. */
  function Begin(ui: Ui): (r: Ui)
    ensures r.button == Loading
    ensures r.status == Status("", ui.status.cls)
    ensures r.fields == ui.fields
  {
    ui.(button := Loading, status := ui.status.(text := ""))
  }

  /** Each branch of the promise sets the status and restores the
      button; only the success branch resets the form. */
  function Settle(ui: Ui, relay: Relay): (r: Ui)
    ensures r.button == Ready
    ensures relay.Delivered? ==> r.status == Status(SentText, SuccessClass) && r.fields == Blank
    ensures relay.Rejected? ==> r.status == Status(FailedText, ErrorClass) && r.fields == ui.fields
  {
    match relay
    case Delivered => Ui(Blank, Status(SentText, SuccessClass), Ready)
    case Rejected(_) => ui.(status := Status(FailedText, ErrorClass), button := Ready)
  }

  /** One submit; the handler only exists once the SDK is loaded. */
  function Submit(ui: Ui, relay: Relay): (s: Submission)
    ensures s.calls == [Send(ServiceId, TemplateId, Payload(ui.fields))]
    ensures s.ui.button == Ready
    ensures relay.Delivered? ==> s.ui.status == Status(SentText, SuccessClass) && s.ui.fields == Blank
    ensures relay.Rejected? ==> s.ui.status == Status(FailedText, ErrorClass) && s.ui.fields == ui.fields
  {
    Submission(Settle(Begin(ui), relay), [Send(ServiceId, TemplateId, Payload(ui.fields))])
  }

  /** `initEmailJS` on page load: `emailjs.init` runs first and is not
      guarded, so without the SDK it throws before the form is looked
      up; otherwise the handler is attached when `#contact-form` exists. */
  function Load(ui: Ui, sdkLoaded: bool, formExists: bool): Page {
    Page(ui, sdkLoaded && formExists)
  }

  /** A submit event: `submitForm` if it was attached, otherwise nothing. */
  function OnSubmit(page: Page, relay: Relay): Submission {
    if page.handler then Submit(page.ui, relay) else Submission(page.ui, [])
  }

  /** A submit does anything at all only when the SDK was loaded and the
      form existed at load; then it makes its one call. */
  lemma SubmitNeedsSdkAndForm(ui: Ui, sdkLoaded: bool, formExists: bool, relay: Relay)
    ensures var s := OnSubmit(Load(ui, sdkLoaded, formExists), relay);
      && (s.ui != ui ==> sdkLoaded && formExists)
      && (|s.calls| > 0 <==> sdkLoaded && formExists)
      && (sdkLoaded && formExists ==> s == Submit(ui, relay))
  {
  }

  /** While the message is on its way an earlier outcome's class stays on
      the (now empty) status line. */
  lemma ClassSurvivesBegin(ui: Ui)
    requires ui.status.cls == ErrorClass
    ensures Begin(ui).status == Status("", ErrorClass)
    ensures Begin(ui).status != PublicForm.Begin(ui).status
  {
  }

  /** Once settled, the two copies of the script leave the page alike;
      they differ only in the keys they send the fields under. */
  lemma AgreesWithPublicScript(ui: Ui, relay: Relay)
    ensures Submit(ui, relay).ui == PublicForm.Submit(ui, true, relay).ui
    ensures Submit(ui, relay).calls[0].params["name"] == PublicForm.Submit(ui, true, relay).calls[0].params["from_name"]
    ensures Submit(ui, relay).calls[0].params["email"] == PublicForm.Submit(ui, true, relay).calls[0].params["email_id"]
    ensures Submit(ui, relay).calls[0].params.Keys != PublicForm.Submit(ui, true, relay).calls[0].params.Keys
  {
    assert "from_name" !in Payload(ui.fields);
  }
}

=== FILE: pagerender.dfy ===
/** The data-driven fragments of `generateHtml` in src/index.tsx: the bio
    paragraphs, one card per project and one item per skill. A card is a
    sequence of abstract blocks in template order; the surrounding markup
    and whitespace are not modelled. */
module PageRender {
  import opened Wrappers
  import Text
  import Roman

  /** The `Project` interface; the fields marked optional there are
      `Option`s here. */
  datatype Project = Project(
    title: string,
    description: string,
    tech: seq<string>,
    githubLink: Option<string>,
    demoLink: Option<string>,
    features: Option<seq<string>>,
    imageUrl: Option<string>,
    projectNote: Option<string>,
    acknowledgment: Option<string>)

  datatype Skill = Skill(name: string, icon: string)

  /** JavaScript truthiness of an optional string: present and not empty. */
  predicate Truthy(o: Option<string>) {
    o.Some? && o.value != ""
  }

  datatype Anchor = GitHub(href: string) | Demo(href: string)

  /** One block of a project card. */
  datatype Block =
    | Heading(caption: string)
    | Image(src: string, alt: string)
    | Description(text: string)
    | FeatureList(items: seq<string>)
    | Acknowledgment(text: string)
    | Note(text: string)
    | TechStack(tags: seq<string>)
    | Links(anchors: seq<Anchor>)

  datatype Kind =
    | HeadingKind | ImageKind | DescriptionKind | FeaturesKind
    | AcknowledgmentKind | NoteKind | TechKind | LinksKind

  function KindOf(b: Block): Kind {
    match b
    case Heading(_) => HeadingKind
    case Image(_, _) => ImageKind
    case Description(_) => DescriptionKind
    case FeatureList(_) => FeaturesKind
    case Acknowledgment(_) => AcknowledgmentKind
    case Note(_) => NoteKind
    case TechStack(_) => TechKind
    case Links(_) => LinksKind
  }

  /** The template lists the kinds in this order. */
  function KindRank(k: Kind): nat {
    match k
    case HeadingKind => 0
    case ImageKind => 1
    case DescriptionKind => 2
    case FeaturesKind => 3
    case AcknowledgmentKind => 4
    case NoteKind => 5
    case TechKind => 6
    case LinksKind => 7
  }

  /** Where a block sits in the card template. */
  function Rank(b: Block): nat {
    KindRank(KindOf(b))
  }

  /** Blocks strictly in template order, none ranked below `from`; so no
      kind appears twice. */
  predicate InTemplateOrder(bs: seq<Block>, from: nat) {
    |bs| == 0 || (from <= Rank(bs[0]) && InTemplateOrder(bs[1..], Rank(bs[0]) + 1))
  }

  /** The first block of the given kind, if any. */
  function Find(bs: seq<Block>, kind: Kind): Option<Block> {
    if |bs| == 0 then None
    else if KindOf(bs[0]) == kind then Some(bs[0])
    else Find(bs[1..], kind)
  }

  /** The heading text of the project at 0-based position `index`. */
  function Label(index: nat, title: string): string {
    "(" + Roman.ToRoman(index + 1) + ") " + title
  }

  /** The anchors inside the always-present `project-links` wrapper:
      GitHub first, then Demo, each only when its link is truthy. */
  function Anchors(p: Project): (anchors: seq<Anchor>)
    ensures |anchors| == (if Truthy(p.githubLink) then 1 else 0) + (if Truthy(p.demoLink) then 1 else 0)
    ensures Truthy(p.githubLink) <==> |anchors| > 0 && anchors[0].GitHub?
    ensures Truthy(p.demoLink) <==> |anchors| > 0 && anchors[|anchors| - 1].Demo?
    ensures forall k :: 0 <= k < |anchors| && anchors[k].GitHub? ==>
      Truthy(p.githubLink) && anchors[k].href == p.githubLink.value
    ensures forall k :: 0 <= k < |anchors| && anchors[k].Demo? ==>
      Truthy(p.demoLink) && anchors[k].href == p.demoLink.value
  {
    (if Truthy(p.githubLink) then [GitHub(p.githubLink.value)] else [])
    + (if Truthy(p.demoLink) then [Demo(p.demoLink.value)] else [])
  }

  /** What the card template emits for one kind of block: the image, the
      feature list, the acknowledgment and the note only when the
      template's condition on their field holds (truthy, or for the
      features merely present); the heading, description, tech stack and
      links always. */
  function Slot(p: Project, index: nat, kind: Kind): Option<Block> {
    match kind
    case HeadingKind => Some(Heading(Label(index, p.title)))
    case ImageKind => if Truthy(p.imageUrl) then Some(Image(p.imageUrl.value, p.title)) else None
    case DescriptionKind => Some(Description(p.description))
    case FeaturesKind => if p.features.Some? then Some(FeatureList(p.features.value)) else None
    case AcknowledgmentKind =>
      if Truthy(p.acknowledgment) then Some(Acknowledgment(p.acknowledgment.value)) else None
    case NoteKind => if Truthy(p.projectNote) then Some(Note(p.projectNote.value)) else None
    case TechKind => Some(TechStack(p.tech))
    case LinksKind => Some(Links(Anchors(p)))
  }

  /** The kind listed at position `i` of the template. */
  function KindAt(i: nat): Kind
    requires i < 8
  {
    [HeadingKind, ImageKind, DescriptionKind, FeaturesKind,
     AcknowledgmentKind, NoteKind, TechKind, LinksKind][i]
  }

  /** The blocks of the filled slots, in slot order. */
  function Present(slots: seq<Option<Block>>): seq<Block> {
    if |slots| == 0 then []
    else if slots[0].Some? then [slots[0].value] + Present(slots[1..])
    else Present(slots[1..])
  }

  /** The card of one project: its slots in template order, the empty
      ones left out. Its blocks are in template order, so no kind of block
      appears twice. */
  function RenderProject(p: Project, index: nat): (card: seq<Block>)
    ensures InTemplateOrder(card, 0)
  {
    CardSlotsRanked(p, index);
    PresentInOrder(CardSlots(p, index), 0);
    Present(CardSlots(p, index))
  }

  function CardSlots(p: Project, index: nat): (slots: seq<Option<Block>>)
    ensures |slots| == 8
  {
    seq(8, i requires 0 <= i < 8 => Slot(p, index, KindAt(i)))
  }

  /** `projects.map((project, index) => ...)`: one card per project, in
      list order, each labelled with its 1-based Roman number. */
  function RenderProjects(ps: seq<Project>): (cards: seq<seq<Block>>)
    ensures |cards| == |ps|
    ensures forall i :: 0 <= i < |ps| ==> cards[i] == RenderProject(ps[i], i)
  {
    seq(|ps|, i requires 0 <= i < |ps| => RenderProject(ps[i], i))
  }

  /** Card `i` is headed by the label of position `i` and the `i`-th
      title, so the labels follow list order. */
  lemma ProjectHeadings(ps: seq<Project>, i: nat)
    requires i < |ps|
    ensures Find(RenderProjects(ps)[i], HeadingKind) == Some(Heading(Label(i, ps[i].title)))
  {
    CardContents(ps[i], i, HeadingKind);
  }

  /** A paragraph of the "About Me" section. */
  datatype Paragraph = Paragraph(text: string)

  function Texts(ps: seq<Paragraph>): seq<string> {
    seq(|ps|, k requires 0 <= k < |ps| => ps[k].text)
  }

  /** `bio.split('\n\n').map(...)`: one paragraph per blank-line separated
      segment, in order. Joined with a blank line the paragraphs give the
      bio back, none holds a blank line, and each but the last ends where
      the first blank line after its start begins. */
  function RenderBio(bio: string): (ps: seq<Paragraph>)
    ensures |ps| >= 1
    ensures Text.JoinWith(Texts(ps), "\n\n") == bio
    ensures forall k :: 0 <= k < |ps| ==> !Text.Contains(ps[k].text, "\n\n")
    ensures forall k :: 0 <= k < |ps| - 1 ==> Text.EndsAtFirstMatch(ps[k].text, "\n\n")
  {
    var parts := Text.SplitOn(bio, "\n\n");
    var ps := seq(|parts|, k requires 0 <= k < |parts| => Paragraph(parts[k]));
    assert Texts(ps) == parts;
    ps
  }

  /** Three newlines in a row: the first two end the first paragraph, and
      the third starts the next. */
  lemma BioThreeNewlines()
    ensures RenderBio("a\n\n\nb") == [Paragraph("a"), Paragraph("\nb")]
  {
    Text.LeftmostSplitExample();
  }

  /** A bio without a blank line is a single paragraph. */
  lemma BioSingleParagraph(bio: string)
    requires !Text.Contains(bio, "\n\n")
    ensures RenderBio(bio) == [Paragraph(bio)]
  {
    Text.SplitWithoutMatch(bio, "\n\n");
  }

  /** One `skill-item` of the skills grid: the icon classes and the name. */
  datatype SkillItem = SkillItem(iconClass: string, name: string)

  /** The class the template adds after the skill's own icon classes. */
  const IconSuffix: string := " skill-icon"

  function RenderSkills(skills: seq<Skill>): (items: seq<SkillItem>)
    ensures |items| == |skills|
    ensures forall i :: 0 <= i < |skills| ==> items[i].name == skills[i].name
    ensures forall i :: 0 <= i < |skills| ==> items[i].iconClass == skills[i].icon + IconSuffix
  {
    seq(|skills|, i requires 0 <= i < |skills| => SkillItem(skills[i].icon + IconSuffix, skills[i].name))
  }

  /** The skill an item shows: its name, and its icon classes without the
      trailing `skill-icon`; `None` when that class is not at the end. */
  function ReadSkill(item: SkillItem): Option<Skill> {
    var n := |item.iconClass| - |IconSuffix|;
    if n >= 0 && item.iconClass[n..] == IconSuffix then Some(Skill(item.name, item.iconClass[..n]))
    else None
  }

  /** The skills a grid shows, in order; `None` when an item cannot be read. */
  function ReadSkills(items: seq<SkillItem>): Option<seq<Skill>> {
    if |items| == 0 then Some([])
    else match (ReadSkill(items[0]), ReadSkills(items[1..]))
      case (Some(sk), Some(rest)) => Some([sk] + rest)
      case _ => None
  }

  lemma ReadSkillBack(sk: Skill)
    ensures ReadSkill(SkillItem(sk.icon + IconSuffix, sk.name)) == Some(sk)
  {
    var c := sk.icon + IconSuffix;
    assert c[|sk.icon|..] == IconSuffix && c[..|sk.icon|] == sk.icon;
  }

  /** The grid shows every skill, in order, with its name and icon:
      reading it back gives the list. */
  lemma {:induction false} SkillsRoundTrip(skills: seq<Skill>)
    ensures ReadSkills(RenderSkills(skills)) == Some(skills)
  {
    if |skills| > 0 {
      var items := RenderSkills(skills);
      assert items[1..] == RenderSkills(skills[1..]);
      SkillsRoundTrip(skills[1..]);
      ReadSkillBack(skills[0]);
      assert skills == [skills[0]] + skills[1..];
    }
  }

  // ---------------------------------------------------------------------
  // Properties of the cards

  lemma KindPositions(kind: Kind)
    ensures KindRank(kind) < 8 && KindAt(KindRank(kind)) == kind
  {
  }

  lemma SlotKind(p: Project, index: nat, kind: Kind)
    ensures Slot(p, index, kind).Some? ==> KindOf(Slot(p, index, kind).value) == kind
  {
  }

  /** Slot `i` of a card holds, if anything, a block of the `i`-th kind. */
  predicate SlotsRanked(slots: seq<Option<Block>>, from: nat) {
    forall i :: 0 <= i < |slots| && slots[i].Some? ==> Rank(slots[i].value) == from + i
  }

  lemma CardSlotsRanked(p: Project, index: nat)
    ensures SlotsRanked(CardSlots(p, index), 0)
  {
    var slots := CardSlots(p, index);
    forall i | 0 <= i < 8 && slots[i].Some? ensures Rank(slots[i].value) == i {
      SlotKind(p, index, KindAt(i));
    }
  }

  lemma RankedTail(slots: seq<Option<Block>>, from: nat)
    requires |slots| > 0 && SlotsRanked(slots, from)
    ensures SlotsRanked(slots[1..], from + 1)
  {
    forall i | 0 <= i < |slots| - 1 && slots[1..][i].Some?
      ensures Rank(slots[1..][i].value) == from + 1 + i
    {
      assert slots[1..][i] == slots[i + 1];
    }
  }

  /** Filled slots ranked in slot order give blocks in template order. */
  lemma {:induction false} PresentInOrder(slots: seq<Option<Block>>, from: nat)
    requires SlotsRanked(slots, from)
    ensures InTemplateOrder(Present(slots), from)
  {
    if |slots| > 0 {
      RankedTail(slots, from);
      PresentInOrder(slots[1..], from + 1);
      if slots[0].Some? {
        assert Present(slots)[1..] == Present(slots[1..]);
      } else {
        OrderWeaken(Present(slots[1..]), from, from + 1);
      }
    }
  }

  lemma OrderWeaken(bs: seq<Block>, lo: nat, hi: nat)
    requires lo <= hi && InTemplateOrder(bs, hi)
    ensures InTemplateOrder(bs, lo)
  {
  }

  lemma KindRankInjective(a: Kind, b: Kind)
    requires KindRank(a) == KindRank(b)
    ensures a == b
  {
  }

  /** Looking a kind up among the blocks of ranked slots finds that
      kind's slot. */
  lemma {:induction false} FindPresent(slots: seq<Option<Block>>, kind: Kind, from: nat)
    requires SlotsRanked(slots, from)
    ensures Find(Present(slots), kind)
         == if from <= KindRank(kind) < from + |slots| then slots[KindRank(kind) - from] else None
  {
    if |slots| > 0 {
      RankedTail(slots, from);
      FindPresent(slots[1..], kind, from + 1);
      if slots[0].Some? {
        var b := slots[0].value;
        assert Present(slots)[1..] == Present(slots[1..]);
        if KindOf(b) == kind {
          assert KindRank(kind) == from;
        } else if KindRank(kind) == from {
          KindRankInjective(KindOf(b), kind);
        }
      }
    }
  }

  /** Looking a kind up in a rendered card finds what the template emits
      for it: nothing is dropped, invented or swapped between kinds. */
  lemma CardContents(p: Project, index: nat, kind: Kind)
    ensures Find(RenderProject(p, index), kind) == Slot(p, index, kind)
  {
    CardSlotsRanked(p, index);
    FindPresent(CardSlots(p, index), kind, 0);
    KindPositions(kind);
  }

  /** The conditional blocks in the project's own terms. */
  lemma ConditionalBlocks(p: Project, index: nat)
    ensures var bs := RenderProject(p, index);
      && (Find(bs, ImageKind).Some? <==> Truthy(p.imageUrl))
      && (Find(bs, FeaturesKind).Some? <==> p.features.Some?)
      && (Find(bs, AcknowledgmentKind).Some? <==> Truthy(p.acknowledgment))
      && (Find(bs, NoteKind).Some? <==> Truthy(p.projectNote))
      && Find(bs, HeadingKind) == Some(Heading(Label(index, p.title)))
      && Find(bs, DescriptionKind) == Some(Description(p.description))
      && Find(bs, TechKind) == Some(TechStack(p.tech))
      && Find(bs, LinksKind) == Some(Links(Anchors(p)))
  {
    CardContents(p, index, ImageKind);
    CardContents(p, index, FeaturesKind);
    CardContents(p, index, AcknowledgmentKind);
    CardContents(p, index, NoteKind);
    CardContents(p, index, HeadingKind);
    CardContents(p, index, DescriptionKind);
    CardContents(p, index, TechKind);
    CardContents(p, index, LinksKind);
  }

  /** `features` is checked for presence only: an empty list still gets
      its (empty) list block. */
  lemma EmptyFeaturesStillRendered(p: Project, index: nat)
    requires p.features == Some([])
    ensures Find(RenderProject(p, index), FeaturesKind) == Some(FeatureList([]))
  {
    CardContents(p, index, FeaturesKind);
  }

  /** The tech stack and the links wrapper are there even when empty. */
  lemma EmptyContainersRendered(p: Project, index: nat)
    requires p.tech == [] && !Truthy(p.githubLink) && !Truthy(p.demoLink)
    ensures Find(RenderProject(p, index), TechKind) == Some(TechStack([]))
    ensures Find(RenderProject(p, index), LinksKind) == Some(Links([]))
  {
    CardContents(p, index, TechKind);
    CardContents(p, index, LinksKind);
  }

  /** The number in a label reads back as the project's 1-based position. */
  lemma LabelNumber(index: nat, title: string)
    ensures exists numeral ::
      && Label(index, title) == "(" + numeral + ") " + title
      && Roman.FromRoman(numeral) == Some(index + 1)
  {
    Roman.RomanRoundTrip(index + 1);
    var numeral := Roman.ToRoman(index + 1);
    assert Label(index, title) == "(" + numeral + ") " + title;
  }

  /** Two different positions never share a label, whatever the titles:
      the numeral ends at the first `)`, and different numbers have
      different numerals. */
  lemma LabelsDistinct(i: nat, j: nat, a: string, b: string)
    requires i != j
    ensures Label(i, a) != Label(j, b)
  {
    var ri, rj := Roman.ToRoman(i + 1), Roman.ToRoman(j + 1);
    Roman.RomanInjective(i + 1, j + 1);
    if |ri| <= |rj| {
      NumeralPrefix(ri, rj, a, b);
    } else {
      NumeralPrefix(rj, ri, b, a);
    }
  }

  /** When the shorter numeral is `x`, the labels can only agree if the
      numerals do. */
  lemma NumeralPrefix(x: string, y: string, a: string, b: string)
    requires |x| <= |y| && x != y
    requires forall k :: 0 <= k < |y| ==> Roman.IsRomanLetter(y[k])
    ensures "(" + x + ") " + a != "(" + y + ") " + b
  {
    var l1, l2 := "(" + x + ") " + a, "(" + y + ") " + b;
    if |x| < |y| {
      assert l1[|x| + 1] == ')';
      assert l2[|x| + 1] == y[|x|] != ')';
    } else {
      assert l1[1..|x| + 1] == x != y == l2[1..|y| + 1];
    }
  }
}

=== FILE: pathrewrite.dfy ===
/** The path fix-up of scripts/generate-static.js: five global
    regular-expression replacements applied in turn to the fetched page, so
    that root-relative `href="/…"` and `src="/…"` references become
    relative ones. Every pattern is a literal, so each step is the
    left-to-right, non-overlapping scan of `Text.ReplaceAll`. */
module PathRewrite {
  import Text

  const HrefRoot: string := "href=\"/"
  const SrcRoot: string := "src=\"/"

  /** One `.replace(/pattern/g, replacement)`; for the patterns with a
      capture group the capture is already put back into `rep`. */
  function Step(s: string, pattern: string, rep: string): string
    requires |pattern| > 0
  {
    Text.ReplaceAll(s, pattern, rep)
  }

  /** The HTML written to `index.html`: the five replacements chained in
      source order. The last three capture `images/`, `stylesheets/` or
      `javascripts/` and re-insert the capture with `$1`. */
  function Rewrite(html: string): (r: string)
    ensures r == Text.ReplaceAll(Text.ReplaceAll(html, HrefRoot, "href=\""), SrcRoot, "src=\"")
  {
    var s2 := Step(Step(html, HrefRoot, "href=\""), SrcRoot, "src=\"");
    CaptureStepsChangeNothing(s2);
    CaptureSteps(s2)
  }

  /** The last three replacements, each putting its capture back. */
  function CaptureSteps(s: string): string {
    var s3 := Step(s, "src=\"" + "images/", "src=\"" + "images/");
    var s4 := Step(s3, "href=\"" + "stylesheets/", "href=\"" + "stylesheets/");
    Step(s4, "src=\"" + "javascripts/", "src=\"" + "javascripts/")
  }

  lemma CaptureStepsChangeNothing(s: string)
    ensures CaptureSteps(s) == s
  {
    CaptureStepIsIdentity(s, "src=\"", "images/");
    CaptureStepIsIdentity(s, "href=\"", "stylesheets/");
    CaptureStepIsIdentity(s, "src=\"", "javascripts/");
  }

  // ---------------------------------------------------------------------
  // Properties

  /** A step that captures a fixed text after a fixed prefix and puts it
      back changes nothing. */
  lemma CaptureStepIsIdentity(s: string, prefix: string, captured: string)
    requires |prefix| > 0
    ensures Step(s, prefix + captured, prefix + captured) == s
  {
    Text.ReplaceWithSelf(s, prefix + captured);
  }

  /** A page without root-relative references is written out unchanged;
      absolute `https://` URLs in particular are left alone. */
  lemma NoRootReferencesUnchanged(html: string)
    requires !Text.Contains(html, HrefRoot) && !Text.Contains(html, SrcRoot)
    ensures Rewrite(html) == html
  {
    Text.ReplaceWithoutMatch(html, HrefRoot, "href=\"");
    Text.ReplaceWithoutMatch(html, SrcRoot, "src=\"");
  }

  /** One character shorter per replaced occurrence of either prefix. */
  lemma RewriteLength(html: string)
    ensures var first := Text.ReplaceAll(html, HrefRoot, "href=\"");
      |Rewrite(html)| == |html| - Text.CountMatches(html, HrefRoot) - Text.CountMatches(first, SrcRoot)
  {
    var first := Text.ReplaceAll(html, HrefRoot, "href=\"");
    var second := Text.ReplaceAll(first, SrcRoot, "src=\"");
    assert Rewrite(html) == second;
    Text.ReplaceAllLength(html, HrefRoot, "href=\"");
    Text.ReplaceAllLength(first, SrcRoot, "src=\"");
  }

  /** A root-relative reference loses its leading slash and nothing
      else: `href="/stylesheets/style.css"` becomes
      `href="stylesheets/style.css"`. */
  lemma LeadingSlashDropped(path: string)
    requires !Text.Contains(path, HrefRoot) && !Text.Contains("href=\"" + path, SrcRoot)
    ensures Rewrite(HrefRoot + path) == "href=\"" + path
  {
    Text.ReplaceAtFront(HrefRoot, path, "href=\"");
    Text.ReplaceWithoutMatch(path, HrefRoot, "href=\"");
    Text.ReplaceWithoutMatch("href=\"" + path, SrcRoot, "src=\"");
  }

  /** Single pass: of `href="//x` only one slash goes, because the scan
      resumes after the replaced text; the result still holds `href="/`. */
  lemma OneSlashPerMatch(path: string)
    requires !Text.Contains(path, HrefRoot) && !Text.Contains(HrefRoot + path, SrcRoot)
    ensures Rewrite(HrefRoot + "/" + path) == HrefRoot + path
    ensures Text.StartsWith(Rewrite(HrefRoot + "/" + path), HrefRoot)
  {
    var html := HrefRoot + ("/" + path);
    assert HrefRoot + "/" + path == html;
    var first := Text.ReplaceAll(html, HrefRoot, "href=\"");
    assert Rewrite(html) == Text.ReplaceAll(first, SrcRoot, "src=\"");
    Text.ReplaceAtFront(HrefRoot, "/" + path, "href=\"");
    Text.ConsNoMatch('/', path, HrefRoot);
    Text.ReplaceWithoutMatch("/" + path, HrefRoot, "href=\"");
    assert "href=\"" + ("/" + path) == HrefRoot + path;
    Text.ReplaceWithoutMatch(HrefRoot + path, SrcRoot, "src=\"");
    assert (HrefRoot + path)[..|HrefRoot|] == HrefRoot;
  }
}

=== FILE: publicform.dfy ===
/** The submit handler of public/javascripts/main.js (`initContactForm`). */
module PublicForm {
  import opened Wrappers
  import opened ContactForm

  const FailedText: string := "Sorry, there was an error sending your message. Please try again later."

  /** What the handler does before calling the relay: disable and relabel
      the button, and clear the status text and class. */
  function Begin(ui: Ui): (r: Ui)
    ensures r.button == Loading
    ensures r.status == Status("", StatusClass)
    ensures r.fields == ui.fields
  {
    ui.(button := Loading, status := Status("", StatusClass))
  }

  /** The promise chain once the relay settles: the outcome's status,
      the form reset only on success, and in `finally` the button back. */
  function Settle(ui: Ui, relay: Relay): (r: Ui)
    ensures r.button == Ready
    ensures relay.Delivered? ==> r.status == Status(SentText, SuccessClass) && r.fields == Blank
    ensures relay.Rejected? ==> r.status == Status(FailedText, ErrorClass) && r.fields == ui.fields
  {
    var settled := match relay
      case Delivered => ui.(status := Status(SentText, SuccessClass), fields := Blank)
      case Rejected(_) => ui.(status := Status(FailedText, ErrorClass));
    settled.(button := Ready)
  }

  /** One submit. The parameters are built by hand under the same keys
      the markup gives the inputs, so they are `NamedInputs` of the fields.
      Without the relay's SDK on the page, `emailjs.send`
      throws after the button was disabled, and nothing settles. */
  function Submit(ui: Ui, sdkLoaded: bool, relay: Relay): (s: Submission)
    ensures sdkLoaded ==> s.calls == [Send(ServiceId, TemplateId, NamedInputs(ui.fields))]
    ensures sdkLoaded ==> s.ui.button == Ready
    ensures sdkLoaded && relay.Delivered? ==> s.ui.status == Status(SentText, SuccessClass) && s.ui.fields == Blank
    ensures sdkLoaded && relay.Rejected? ==> s.ui.status == Status(FailedText, ErrorClass) && s.ui.fields == ui.fields
    ensures !sdkLoaded ==> s.calls == [] && s.ui.button == Loading && s.ui.fields == ui.fields
  {
    var begun := Begin(ui);
    if sdkLoaded then Submission(Settle(begun, relay), [Send(ServiceId, TemplateId, NamedInputs(ui.fields))])
    else Submission(begun, [])
  }

  /** `initContactForm` on page load: the handler is attached only when
      the page has `#contact-form`; this script never initialises the
      relay itself. */
  function Load(ui: Ui, formExists: bool): Page {
    Page(ui, formExists)
  }

  /** A submit event: the handler runs if one is attached; otherwise the
      script does nothing and calls nobody. */
  function OnSubmit(page: Page, sdkLoaded: bool, relay: Relay): Submission {
    if page.handler then Submit(page.ui, sdkLoaded, relay) else Submission(page.ui, [])
  }

  /** A submit changes the page or calls the relay only when the form
      existed at load; the relay is called exactly when, in addition, its
      SDK is on the page. */
  lemma SubmitNeedsForm(ui: Ui, formExists: bool, sdkLoaded: bool, relay: Relay)
    ensures var s := OnSubmit(Load(ui, formExists), sdkLoaded, relay);
      && (s.ui != ui ==> formExists)
      && (|s.calls| > 0 <==> formExists && sdkLoaded)
      && (formExists ==> s == Submit(ui, sdkLoaded, relay))
  {
  }

  /** The relay receives exactly what was typed: the fields can be read
      back from the parameters of the one call. */
  lemma PayloadCarriesFields(ui: Ui, relay: Relay)
    ensures FromNamedInputs(Submit(ui, true, relay).calls[0].params) == Some(ui.fields)
  {
    NamedInputsRoundTrip(ui.fields);
  }

  /** A failed send can be retried by submitting again: the fields are
      still there and the button is enabled. A second failure leaves the
      page as the first did. */
  lemma RetryAfterFailure(ui: Ui, e1: Option<string>, e2: Option<string>)
    ensures Submit(Submit(ui, true, Rejected(e1)).ui, true, Rejected(e2)).ui == Submit(ui, true, Rejected(e1)).ui
    ensures Submit(Submit(ui, true, Rejected(e1)).ui, true, Delivered).calls == Submit(ui, true, Delivered).calls
  {
  }

  /** The submit goes from submitting to the outcome the relay gave. */
  lemma SubmitPhases(ui: Ui, relay: Relay)
    ensures PhaseOf(Begin(ui)) == Submitting
    ensures PhaseOf(Submit(ui, true, relay).ui) == if relay.Delivered? then Succeeded else Failed
  {
  }

  /** Without the SDK the button stays disabled, with the spinner: nothing
      in the script enables it again. */
  lemma MissingSdkStrandsButton(ui: Ui, relay: Relay)
    ensures Submit(ui, false, relay).ui.button.disabled
    ensures Submit(ui, false, relay).ui.button.html == SendingHtml
    ensures PhaseOf(Submit(ui, false, relay).ui) == Submitting
  {
  }
}

=== FILE: roman.dfy ===
/** `toRoman` of src/index.tsx: greedy subtraction over a fixed table of
    thirteen (value, numeral) entries, largest value first. The projects of
    the page are numbered with it. */
module Roman {
  import opened Wrappers
  import Text

  /** A token names one entry of the table by its position. */
  type Token = t: int | 0 <= t < 13

  /** The table, entry by entry: entry `t` pairs `Value(t)` with
      `Numeral(t)`, and the entries are listed largest value first. */
  function Value(t: Token): int {
    match t
    case 0 => 1000 case 1 => 900 case 2 => 500 case 3 => 400 case 4 => 100
    case 5 => 90 case 6 => 50 case 7 => 40 case 8 => 10 case 9 => 9
    case 10 => 5 case 11 => 4 case _ => 1
  }

  function Numeral(t: Token): string {
    match t
    case 0 => "M" case 1 => "CM" case 2 => "D" case 3 => "CD" case 4 => "C"
    case 5 => "XC" case 6 => "L" case 7 => "XL" case 8 => "X" case 9 => "IX"
    case 10 => "V" case 11 => "IV" case _ => "I"
  }

  /** The numerals of the tokens, concatenated in order. */
  function Spell(ts: seq<Token>): string {
    if |ts| == 0 then "" else Numeral(ts[0]) + Spell(ts[1..])
  }

  /** The sum of the values of the tokens. */
  function ValueOf(ts: seq<Token>): int {
    if |ts| == 0 then 0 else Value(ts[0]) + ValueOf(ts[1..])
  }

  /** Tokens in table order (so their values never increase), none before
      entry `i`. */
  predicate Ascending(ts: seq<Token>, i: int) {
    |ts| == 0 || (i <= ts[0] && Ascending(ts[1..], ts[0]))
  }

  /** The greedy loop from table entry `i` on with `num` still to express:
      the inner `while (num >= value)` takes entry `i` again, otherwise the
      outer loop moves to the next entry. */
  function Greedy(num: int, i: nat): seq<Token>
    requires i <= 13
    decreases 13 - i, num
  {
    if i == 13 then []
    else if num >= Value(i) then [i as Token] + Greedy(num - Value(i), i)
    else Greedy(num, i + 1)
  }

  /** The string `toRoman(num)` returns. */
  function ToRoman(num: int): (r: string)
    ensures num < 1 ==> r == ""
    ensures forall k :: 0 <= k < |r| ==> IsRomanLetter(r[k])
  {
    NothingBelowOne(num, 0);
    SpellLetters(Greedy(num, 0));
    Spell(Greedy(num, 0))
  }

  lemma {:induction false} NothingBelowOne(num: int, i: nat)
    requires i <= 13
    ensures num < 1 ==> Greedy(num, i) == []
    decreases 13 - i
  {
    if i < 13 && num < 1 {
      NothingBelowOne(num, i + 1);
    }
  }

  /** The source's nested loops, step for step. */
  method ToRomanLoop(n: int) returns (result: string)
    ensures result == ToRoman(n)
  {
    result := "";
    var num := n;
    var i := 0;
    while i < 13
      invariant 0 <= i <= 13
      invariant result + Spell(Greedy(num, i)) == ToRoman(n)
    {
      while num >= Value(i)
        invariant result + Spell(Greedy(num, i)) == ToRoman(n)
        decreases num
      {
        SpellStep(num, i);
        result := result + Numeral(i);
        num := num - Value(i);
      }
      SkipTo(num, i, i + 1);
      i := i + 1;
    }
  }

  // ---------------------------------------------------------------------
  // What the greedy output is made of

  lemma ValuesStrictlyDecrease(a: Token, b: Token)
    requires a < b
    ensures Value(a) > Value(b)
  {
  }

  /** What the greedy loop emits: table entries in table order, none
      before the entry it starts from, worth exactly `num` while the last
      entry (value 1) is still ahead, and nothing at all for `num < 1`. */
  lemma {:induction false} GreedyShape(num: int, i: nat)
    requires i <= 13
    ensures Ascending(Greedy(num, i), i)
    ensures 0 <= num && i < 13 ==> ValueOf(Greedy(num, i)) == num
    ensures num < 1 ==> Greedy(num, i) == []
    decreases 13 - i, num
  {
    if i < 13 {
      if num >= Value(i) {
        var rest := Greedy(num - Value(i), i);
        GreedyShape(num - Value(i), i);
        assert ([i as Token] + rest)[1..] == rest;
      } else {
        GreedyShape(num, i + 1);
      }
    }
  }

  /** Tokens in table order have non-increasing values. */
  lemma {:induction false} AscendingValues(ts: seq<Token>, i: int)
    requires Ascending(ts, i)
    ensures forall k :: 0 <= k < |ts| ==> i <= ts[k]
    ensures forall j, k :: 0 <= j < k < |ts| ==> Value(ts[j]) >= Value(ts[k])
  {
    if |ts| > 0 {
      AscendingValues(ts[1..], ts[0]);
      forall k | 0 <= k < |ts| ensures i <= ts[k] {
        if k > 0 {
          assert ts[k] == ts[1..][k - 1];
        }
      }
      forall j, k | 0 <= j < k < |ts| ensures Value(ts[j]) >= Value(ts[k]) {
        if j > 0 {
          assert ts[j] == ts[1..][j - 1] && ts[k] == ts[1..][k - 1];
        } else {
          assert ts[k] == ts[1..][k - 1];
          if ts[0] < ts[k] {
            ValuesStrictlyDecrease(ts[0], ts[k]);
          }
        }
      }
    }
  }

  /** `toRoman(n)` is made of table numerals whose values never increase
      from left to right, and whose values add up to `n` when `n` is not
      negative. */
  lemma RomanIsGreedyTokens(n: int)
    ensures var ts := Greedy(n, 0);
      && ToRoman(n) == Spell(ts)
      && (forall j, k :: 0 <= j < k < |ts| ==> Value(ts[j]) >= Value(ts[k]))
      && (n >= 0 ==> ValueOf(ts) == n)
  {
    GreedyShape(n, 0);
    AscendingValues(Greedy(n, 0), 0);
  }

  lemma {:induction false} SpellConcat(a: seq<Token>, b: seq<Token>)
    ensures Spell(a + b) == Spell(a) + Spell(b)
  {
    if |a| == 0 {
      assert a + b == b;
    } else {
      assert (a + b)[0] == a[0];
      assert (a + b)[1..] == a[1..] + b;
      SpellConcat(a[1..], b);
    }
  }

  // ---------------------------------------------------------------------
  // Stepping through the loops

  /** One pass of the inner loop on entry `i`. */
  lemma GreedyStep(num: int, i: Token)
    requires num >= Value(i)
    ensures Greedy(num, i) == [i] + Greedy(num - Value(i), i)
  {
  }

  lemma SpellStep(num: int, i: Token)
    requires num >= Value(i)
    ensures Spell(Greedy(num, i)) == Numeral(i) + Spell(Greedy(num - Value(i), i))
  {
    var ts := Greedy(num, i);
    assert ts[1..] == Greedy(num - Value(i), i);
  }

  /** Entries whose value exceeds `r` are passed over. */
  lemma {:induction false} SkipTo(r: int, i: nat, j: nat)
    requires i <= j <= 13
    requires i < j ==> r < Value(j - 1)
    ensures Greedy(r, i) == Greedy(r, j)
    decreases j - i
  {
    if i < j {
      if i < j - 1 {
        ValuesStrictlyDecrease(i, j - 1);
      }
      SkipTo(r, i + 1, j);
    }
  }

  /** `c` copies of token `t`. */
  function Rep(t: Token, c: nat): seq<Token> {
    seq(c, _ => t)
  }

  /** The `M` loop runs `n / 1000` times and leaves `n % 1000`. */
  lemma {:induction false} Thousands(n: int)
    requires n >= 0
    ensures Greedy(n, 0) == Rep(0, n / 1000) + Greedy(n % 1000, 1)
    decreases n
  {
    if n >= 1000 {
      GreedyStep(n, 0);
      Thousands(n - 1000);
      assert Rep(0, n / 1000) == [0] + Rep(0, (n - 1000) / 1000);
    } else {
      SkipTo(n, 0, 1);
      assert Rep(0, 0) == [];
    }
  }

  // ---------------------------------------------------------------------
  // One decade at a time

  /** The first entry of a decade: `CM` (hundreds), `XC` (tens) or `IX`
      (units); the decade's entries are `k` (nine units), `k + 1` (five),
      `k + 2` (four) and `k + 3` (one unit). */
  predicate IsDecade(k: int) {
    k == 1 || k == 5 || k == 9
  }

  /** `d * b` for a single decimal digit `d`, by cases. */
  function Times(d: int, b: int): int {
    if d == 1 then b else if d == 2 then 2 * b else if d == 3 then 3 * b
    else if d == 4 then 4 * b else if d == 5 then 5 * b else if d == 6 then 6 * b
    else if d == 7 then 7 * b else if d == 8 then 8 * b else if d == 9 then 9 * b
    else 0
  }

  /** The tokens of the decimal digit `d` in decade `k`. */
  function DigitTokens(d: int, k: int): seq<Token>
    requires IsDecade(k)
  {
    var nine, five, four, one := k as Token, (k + 1) as Token, (k + 2) as Token, (k + 3) as Token;
    if d == 1 then [one]
    else if d == 2 then [one, one]
    else if d == 3 then [one, one, one]
    else if d == 4 then [four]
    else if d == 5 then [five]
    else if d == 6 then [five, one]
    else if d == 7 then [five, one, one]
    else if d == 8 then [five, one, one, one]
    else if d == 9 then [nine]
    else []
  }

  /** The unit entry of a decade (`C`, `X` or `I`) taken `c` times, for
      `c` up to three. */
  lemma UnitRun(k: nat, c: int, r: int)
    requires IsDecade(k) && 0 <= c <= 3
    requires Times(c, Value(k + 3)) <= r < Times(c + 1, Value(k + 3))
    ensures Greedy(r, k + 3) == DigitTokens(c, k) + Greedy(r - Times(c, Value(k + 3)), k + 4)
  {
    var b := Value(k + 3);
    var t := (k + 3) as Token;
    if c == 3 {
      ThreeUnits(k, r);
    } else if c == 2 {
      TwoUnits(k, r);
    } else if c == 1 {
      GreedyStep(r, t);
      SkipTo(r - b, k + 3, k + 4);
    } else {
      SkipTo(r, k + 3, k + 4);
    }
  }

  lemma ThreeUnits(k: nat, r: int)
    requires IsDecade(k) && 3 * Value(k + 3) <= r < 4 * Value(k + 3)
    ensures Greedy(r, k + 3) == DigitTokens(3, k) + Greedy(r - 3 * Value(k + 3), k + 4)
  {
    var b := Value(k + 3);
    var t := (k + 3) as Token;
    GreedyStep(r, t);
    GreedyStep(r - b, t);
    GreedyStep(r - 2 * b, t);
    SkipTo(r - 3 * b, k + 3, k + 4);
  }

  lemma TwoUnits(k: nat, r: int)
    requires IsDecade(k) && 2 * Value(k + 3) <= r < 3 * Value(k + 3)
    ensures Greedy(r, k + 3) == DigitTokens(2, k) + Greedy(r - 2 * Value(k + 3), k + 4)
  {
    var b := Value(k + 3);
    var t := (k + 3) as Token;
    GreedyStep(r, t);
    GreedyStep(r - b, t);
    SkipTo(r - 2 * b, k + 3, k + 4);
  }

  /** Within a decade the greedy loop emits exactly the tokens of the
      digit `d` and leaves the remainder below the decade's unit. */
  lemma Decade(k: nat, d: int, r: int)
    requires IsDecade(k) && 0 <= d < 10
    requires Times(d, Value(k + 3)) <= r < Times(d, Value(k + 3)) + Value(k + 3)
    ensures Greedy(r, k) == DigitTokens(d, k) + Greedy(r - Times(d, Value(k + 3)), k + 4)
  {
    var b := Value(k + 3);
    assert Value(k) == 9 * b && Value(k + 1) == 5 * b && Value(k + 2) == 4 * b;
    if d == 9 {
      GreedyStep(r, k);
      SkipTo(r - 9 * b, k, k + 4);
    } else if d >= 5 {
      DecadeHigh(k, d - 5, r);
    } else if d == 4 {
      SkipTo(r, k, k + 2);
      GreedyStep(r, k + 2);
      SkipTo(r - 4 * b, k + 2, k + 4);
    } else {
      SkipTo(r, k, k + 3);
      UnitRun(k, d, r);
    }
  }

  lemma DecadeHigh(k: nat, c: int, r: int)
    requires IsDecade(k) && 0 <= c <= 3
    requires Times(5 + c, Value(k + 3)) <= r < Times(6 + c, Value(k + 3))
    ensures Greedy(r, k) == DigitTokens(5 + c, k) + Greedy(r - Times(5 + c, Value(k + 3)), k + 4)
  {
    var b := Value(k + 3);
    var five := (k + 1) as Token;
    assert Value(k) == 9 * b && Value(five) == 5 * b && Value(k + 2) == 4 * b;
    var low := r - 5 * b;
    assert Times(c, b) <= low < Times(c + 1, b);
    var tail := Greedy(low - Times(c, b), k + 4);
    calc {
      Greedy(r, k);
      { SkipTo(r, k, k + 1); }
      Greedy(r, five);
      { GreedyStep(r, five); }
      [five] + Greedy(low, five);
      { SkipTo(low, k + 1, k + 3); }
      [five] + Greedy(low, k + 3);
      { UnitRun(k, c, low); }
      [five] + (DigitTokens(c, k) + tail);
    }
    assert low - Times(c, b) == r - Times(5 + c, b);
    assert [five] + (DigitTokens(c, k) + tail) == DigitTokens(5 + c, k) + tail;
  }

  lemma TimesIsProduct(d: int, b: int)
    requires 0 <= d < 10
    ensures Times(d, b) == d * b
  {
  }

  // ---------------------------------------------------------------------
  // An independent description: thousands, then one digit per decade

  /** `c` copies of `s`. */
  function Repeat(s: string, c: nat): string {
    if c == 0 then "" else s + Repeat(s, c - 1)
  }

  /** The textbook spelling of one decimal digit from the decade's unit,
      five and ten letters: `I II III IV V VI VII VIII IX` for units. */
  function Digit(d: int, one: string, five: string, ten: string): string {
    if 1 <= d <= 3 then Repeat(one, d)
    else if d == 4 then one + five
    else if 5 <= d <= 8 then five + Repeat(one, d - 5)
    else if d == 9 then one + ten
    else ""
  }

  /** Thousands as a run of `M`; then the hundreds, tens and units of the
      remainder, each spelled on its own. */
  function DecimalRoman(n: nat): string {
    var m := n % 1000;
    var r := m % 100;
    Repeat("M", n / 1000)
    + Digit(m / 100, "C", "D", "M")
    + Digit(r / 10, "X", "L", "C")
    + Digit(r % 10, "I", "V", "X")
  }

  lemma {:induction false} SpellRep(c: nat)
    ensures Spell(Rep(0, c)) == Repeat("M", c)
  {
    if c > 0 {
      assert Rep(0, c)[1..] == Rep(0, c - 1);
      SpellRep(c - 1);
    }
  }

  lemma SpellDigit(d: int, k: nat, one: string, five: string, ten: string)
    requires IsDecade(k) && 0 <= d < 10
    requires Numeral(k + 3) == one && Numeral(k + 1) == five
    requires Numeral(k + 2) == one + five && Numeral(k) == one + ten
    ensures Spell(DigitTokens(d, k)) == Digit(d, one, five, ten)
  {
    var o, f := (k + 3) as Token, (k + 1) as Token;
    assert Spell([o]) == one && Spell([f]) == five;
    assert Repeat(one, 1) == one;
    if d == 2 || d == 7 {
      assert Spell([o, o]) == one + Spell([o]);
      assert Repeat(one, 2) == one + one;
    } else if d == 3 || d == 8 {
      assert Spell([o, o, o]) == one + Spell([o, o]);
      assert Spell([o, o]) == one + Spell([o]);
      assert Repeat(one, 3) == one + (one + one);
    }
    if 5 <= d <= 8 {
      assert DigitTokens(d, k) == [f] + DigitTokens(d - 5, k);
      SpellConcat([f], DigitTokens(d - 5, k));
    }
  }

  lemma UnitsOnly(u: int)
    requires 0 <= u < 10
    ensures Greedy(u, 9) == DigitTokens(u, 9)
  {
    TimesIsProduct(u, 1);
    Decade(9, u, u);
  }

  lemma TensAndUnits(r: int)
    requires 0 <= r < 100
    ensures Greedy(r, 5) == DigitTokens(r / 10, 5) + DigitTokens(r % 10, 9)
  {
    TimesIsProduct(r / 10, 10);
    Decade(5, r / 10, r);
    assert r - Times(r / 10, 10) == r % 10;
    UnitsOnly(r % 10);
  }

  lemma BelowThousand(m: int)
    requires 0 <= m < 1000
    ensures Greedy(m, 1) == DigitTokens(m / 100, 1) + (DigitTokens(m % 100 / 10, 5) + DigitTokens(m % 100 % 10, 9))
  {
    TimesIsProduct(m / 100, 100);
    Decade(1, m / 100, m);
    assert m - Times(m / 100, 100) == m % 100;
    TensAndUnits(m % 100);
  }

  /** The tokens of the greedy loop, decade by decade. */
  lemma GreedyDecades(n: nat)
    ensures var m := n % 1000; var r := m % 100;
      Greedy(n, 0) == Rep(0, n / 1000) + (DigitTokens(m / 100, 1) + (DigitTokens(r / 10, 5) + DigitTokens(r % 10, 9)))
  {
    Thousands(n);
    BelowThousand(n % 1000);
  }

  lemma SpellDecades(c: nat, h: int, t: int, u: int)
    requires 0 <= h < 10 && 0 <= t < 10 && 0 <= u < 10
    ensures Spell(Rep(0, c) + (DigitTokens(h, 1) + (DigitTokens(t, 5) + DigitTokens(u, 9))))
         == Repeat("M", c) + Digit(h, "C", "D", "M") + Digit(t, "X", "L", "C") + Digit(u, "I", "V", "X")
  {
    var hs, low := DigitTokens(h, 1), DigitTokens(t, 5) + DigitTokens(u, 9);
    SpellConcat(Rep(0, c), hs + low);
    SpellConcat(hs, low);
    SpellRep(c);
    SpellHundreds(h);
    SpellLow(t, u);
    Regroup(Repeat("M", c), Digit(h, "C", "D", "M"), Digit(t, "X", "L", "C"), Digit(u, "I", "V", "X"));
  }

  lemma Regroup(a: string, b: string, c: string, d: string)
    ensures a + (b + (c + d)) == a + b + c + d
  {
  }

  lemma SpellLow(t: int, u: int)
    requires 0 <= t < 10 && 0 <= u < 10
    ensures Spell(DigitTokens(t, 5) + DigitTokens(u, 9)) == Digit(t, "X", "L", "C") + Digit(u, "I", "V", "X")
  {
    SpellConcat(DigitTokens(t, 5), DigitTokens(u, 9));
    SpellTens(t);
    SpellUnits(u);
  }

  lemma SpellHundreds(d: int)
    requires 0 <= d < 10
    ensures Spell(DigitTokens(d, 1)) == Digit(d, "C", "D", "M")
  {
    SpellDigit(d, 1, "C", "D", "M");
  }

  lemma SpellTens(d: int)
    requires 0 <= d < 10
    ensures Spell(DigitTokens(d, 5)) == Digit(d, "X", "L", "C")
  {
    SpellDigit(d, 5, "X", "L", "C");
  }

  lemma SpellUnits(d: int)
    requires 0 <= d < 10
    ensures Spell(DigitTokens(d, 9)) == Digit(d, "I", "V", "X")
  {
    SpellDigit(d, 9, "I", "V", "X");
  }

  /** The greedy loop agrees with the digit-by-digit spelling for every
      number that is not negative. */
  lemma GreedyIsDecimal(n: nat)
    ensures ToRoman(n) == DecimalRoman(n)
  {
    var m := n % 1000;
    var r := m % 100;
    GreedyDecades(n);
    SpellDecades(n / 1000, m / 100, r / 10, r % 10);
  }

  /** The numbers of the first projects on the page. */
  lemma SmallExamples()
    ensures ToRoman(1) == "I" && ToRoman(4) == "IV" && ToRoman(9) == "IX"
  {
    SkipTo(1, 0, 12);
    SkipTo(4, 0, 11);
    SkipTo(9, 0, 9);
  }

  lemma FortyNine()
    ensures ToRoman(49) == "XLIX"
  {
    SkipTo(49, 0, 7);
    GreedyStep(49, 7);
    SkipTo(9, 7, 9);
    GreedyStep(9, 9);
    NothingBelowOne(0, 9);
    var ts: seq<Token> := [7, 9];
    assert Greedy(49, 0) == ts;
    assert ts[1..] == [9] && Spell([9]) == "IX";
    assert Spell(ts) == "XL" + "IX";
  }

  lemma LargeExamples()
    ensures ToRoman(2024) == "MMXXIV"
  {
    GreedyStep(2024, 0);
    GreedyStep(1024, 0);
    SkipTo(24, 0, 8);
    GreedyStep(24, 8);
    GreedyStep(14, 8);
    SkipTo(4, 8, 11);
    GreedyStep(4, 11);
    NothingBelowOne(0, 11);
    var ts: seq<Token> := [0, 0, 8, 8, 11];
    assert Greedy(2024, 0) == ts;
    assert Spell([11]) == "IV";
    assert Spell([8, 11]) == "X" + "IV";
    assert Spell([8, 8, 11]) == "X" + "XIV";
    assert Spell([0, 8, 8, 11]) == "M" + "XXIV";
    assert Spell(ts) == "M" + "MXXIV";
  }

  // ---------------------------------------------------------------------
  // No letter four times in a row below 4000

  /** The same letter at positions `i` to `i + 3`. */
  predicate RunAt(s: string, i: int) {
    0 <= i && i + 3 < |s| && s[i] == s[i + 1] && s[i + 1] == s[i + 2] && s[i + 2] == s[i + 3]
  }

  predicate NoRunOfFour(s: string) {
    forall i | 0 <= i < |s| :: !RunAt(s, i)
  }

  predicate AllIn(s: string, letters: set<char>) {
    forall k :: 0 <= k < |s| ==> s[k] in letters
  }

  lemma RunFreeConcat(a: string, b: string)
    requires NoRunOfFour(a) && NoRunOfFour(b)
    requires |a| > 0 && |b| > 0 ==> a[|a| - 1] != b[0]
    ensures NoRunOfFour(a + b)
  {
    var s := a + b;
    forall i | 0 <= i < |s| ensures !RunAt(s, i) {
      if i + 3 < |a| {
        assert !RunAt(a, i);
        assert s[i..i + 4] == a[i..i + 4];
      } else if i >= |a| && i + 3 < |s| {
        assert !RunAt(b, i - |a|);
        assert s[i..i + 4] == b[i - |a|..i - |a| + 4];
      } else if i + 3 < |s| {
        assert s[|a| - 1] == a[|a| - 1] != b[0] == s[|a|];
      }
    }
  }

  lemma AllInConcat(a: string, b: string, letters: set<char>)
    requires AllIn(a, letters) && AllIn(b, letters)
    ensures AllIn(a + b, letters)
  {
    forall k | 0 <= k < |a + b| ensures (a + b)[k] in letters {
      if k >= |a| {
        assert (a + b)[k] == b[k - |a|];
      }
    }
  }

  lemma ShortIsRunFree(s: string)
    requires |s| < 4
    ensures NoRunOfFour(s)
  {
  }

  lemma RepeatShape(c: nat, m: char)
    requires c <= 3
    ensures Repeat([m], c) == seq(c, _ => m)
  {
    if c > 0 {
      RepeatShape(c - 1, m);
    }
  }

  /** One digit: at most four letters, drawn from its decade, starting
      with the unit or the five, and never four alike. */
  lemma DigitShape(d: int, o: char, f: char, t: char)
    requires 0 <= d < 10 && o != f
    ensures NoRunOfFour(Digit(d, [o], [f], [t]))
    ensures AllIn(Digit(d, [o], [f], [t]), {o, f, t})
    ensures |Digit(d, [o], [f], [t])| > 0 ==> Digit(d, [o], [f], [t])[0] in {o, f}
  {
    var s := Digit(d, [o], [f], [t]);
    if 1 <= d <= 3 {
      RepeatShape(d, o);
    } else if 5 <= d <= 8 {
      RepeatShape(d - 5, o);
      assert s == [f] + seq(d - 5, _ => o);
    }
    if |s| < 4 {
      ShortIsRunFree(s);
    } else {
      assert d == 8 && s == [f, o, o, o];
      assert !RunAt(s, 0);
    }
  }

  /** Below 4000 the numeral never holds the same letter four times in a
      row. */
  lemma RomanRunFree(n: int)
    requires 0 <= n <= 3999
    ensures NoRunOfFour(ToRoman(n))
  {
    GreedyIsDecimal(n);
    var m := n % 1000;
    var r := m % 100;
    var ms := Repeat("M", n / 1000);
    RepeatShape(n / 1000, 'M');
    ShortIsRunFree(ms);
    DigitShape(m / 100, 'C', 'D', 'M');
    DigitShape(r / 10, 'X', 'L', 'C');
    DigitShape(r % 10, 'I', 'V', 'X');
    Assemble(ms, Digit(m / 100, "C", "D", "M"), Digit(r / 10, "X", "L", "C"), Digit(r % 10, "I", "V", "X"));
  }

  /** Thousands, hundreds, tens and units side by side: each part starts
      with a letter the parts before it do not use. */
  lemma Assemble(ms: string, h: string, t: string, u: string)
    requires NoRunOfFour(ms) && NoRunOfFour(h) && NoRunOfFour(t) && NoRunOfFour(u)
    requires AllIn(ms, {'M'}) && AllIn(h, {'C', 'D', 'M'}) && AllIn(t, {'X', 'L', 'C'})
    requires |h| > 0 ==> h[0] in {'C', 'D'}
    requires |t| > 0 ==> t[0] in {'X', 'L'}
    requires |u| > 0 ==> u[0] in {'I', 'V'}
    ensures NoRunOfFour(ms + h + t + u)
  {
    RunFreeConcat(ms, h);
    AllPrefixLetters(ms, h, {'M'}, {'C', 'D', 'M'});
    AllInConcat(ms, h, {'M', 'C', 'D'});
    RunFreeConcat(ms + h, t);
    AllPrefixLetters(ms + h, t, {'M', 'C', 'D'}, {'X', 'L', 'C'});
    AllInConcat(ms + h, t, {'M', 'C', 'D', 'X', 'L'});
    RunFreeConcat(ms + h + t, u);
  }

  /** Widening the letter set of the left part to take in the right one. */
  lemma AllPrefixLetters(a: string, b: string, la: set<char>, lb: set<char>)
    requires AllIn(a, la) && AllIn(b, lb)
    ensures AllIn(a, la + lb) && AllIn(b, la + lb)
  {
  }

  /** The bound is tight: 4000 already needs four `M`s. */
  lemma RunAtFourThousand()
    ensures ToRoman(4000) == "MMMM"
  {
    SkipTo(0, 1, 13);
    assert Greedy(4000, 0) == [0, 0, 0, 0];
  }

  // ---------------------------------------------------------------------
  // Reading a numeral back

  /** Reads table entries greedily from entry `i` on, the mirror image of
      `Greedy`; `None` when some text is left that no remaining entry
      starts. */
  function Parse(s: string, i: nat): Option<int>
    requires i <= 13
    decreases |s|, 13 - i
  {
    if |s| == 0 then Some(0)
    else if i == 13 then None
    else if Text.StartsWith(s, Numeral(i)) then
      match Parse(s[|Numeral(i)|..], i)
      case Some(v) => Some(Value(i) + v)
      case None => None
    else Parse(s, i + 1)
  }

  function FromRoman(s: string): Option<int> {
    Parse(s, 0)
  }

  function Lead(t: Token): char {
    Numeral(t)[0]
  }

  /** An earlier table entry never starts the text of a later one,
      whatever later entry follows it. */
  lemma NoClash(u: Token, t: Token, w: Token, rest: string)
    requires u < t <= w
    requires |rest| > 0 ==> rest[0] == Lead(w)
    ensures !Text.StartsWith(Numeral(t) + rest, Numeral(u))
  {
    var s := Numeral(t) + rest;
    if Lead(u) == Lead(t) {
      assert |Numeral(u)| == 2;
      if |Numeral(t)| == 2 {
        assert s[1] == Numeral(t)[1] != Numeral(u)[1];
      } else if |rest| > 0 {
        assert s[1] == Lead(w) != Numeral(u)[1];
      }
    } else {
      assert s[0] == Lead(t);
    }
  }

  lemma SpellStarts(ts: seq<Token>)
    ensures |Spell(ts)| > 0 <==> |ts| > 0
    ensures |ts| > 0 ==> Spell(ts)[0] == Lead(ts[0])
  {
  }

  lemma {:induction false} ParseSpell(ts: seq<Token>, i: nat)
    requires i <= 13 && Ascending(ts, i)
    ensures Parse(Spell(ts), i) == Some(ValueOf(ts))
    decreases |ts|, 13 - i
  {
    if |ts| > 0 {
      if ts[0] == i {
        ParseSpell(ts[1..], i);
        ParseTaken(ts, i);
      } else {
        ParseSkipped(ts, i);
        ParseSpell(ts, i + 1);
      }
    }
  }

  /** When the first token is entry `i`, the parser takes its numeral and
      carries on reading the rest from the same entry. */
  lemma ParseTaken(ts: seq<Token>, i: nat)
    requires |ts| > 0 && ts[0] == i
    requires Parse(Spell(ts[1..]), i) == Some(ValueOf(ts[1..]))
    ensures Parse(Spell(ts), i) == Some(ValueOf(ts))
  {
    var s := Spell(ts);
    assert s == Numeral(ts[0]) + Spell(ts[1..]);
    assert s[|Numeral(i)|..] == Spell(ts[1..]);
    assert Text.StartsWith(s, Numeral(i));
  }

  /** When the first token comes later in the table than entry `i`, the
      numeral of entry `i` does not start the text, so the parser moves on. */
  lemma ParseSkipped(ts: seq<Token>, i: nat)
    requires i <= 13 && Ascending(ts, i) && |ts| > 0 && ts[0] != i
    ensures i < 13 && Ascending(ts, i + 1)
    ensures Parse(Spell(ts), i) == Parse(Spell(ts), i + 1)
  {
    var t := ts[0];
    var s := Spell(ts);
    assert s == Numeral(t) + Spell(ts[1..]);
    SpellStarts(ts[1..]);
    var w := if |ts| > 1 then ts[1] else t;
    NoClash(i, t, w, Spell(ts[1..]));
  }

  /** Reading back what `toRoman` wrote gives the number again. */
  lemma RomanRoundTrip(n: int)
    requires n >= 0
    ensures FromRoman(ToRoman(n)) == Some(n)
  {
    GreedyShape(n, 0);
    ParseSpell(Greedy(n, 0), 0);
  }

  /** Different numbers that are not negative get different numerals. */
  lemma RomanInjective(a: int, b: int)
    requires a >= 0 && b >= 0 && a != b
    ensures ToRoman(a) != ToRoman(b)
  {
    RomanRoundTrip(a);
    RomanRoundTrip(b);
  }

  /** Numerals are written with the seven letters `MDCLXVI` only. */
  predicate IsRomanLetter(c: char) {
    c == 'M' || c == 'D' || c == 'C' || c == 'L' || c == 'X' || c == 'V' || c == 'I'
  }

  lemma {:induction false} SpellLetters(ts: seq<Token>)
    ensures forall k :: 0 <= k < |Spell(ts)| ==> IsRomanLetter(Spell(ts)[k])
  {
    if |ts| > 0 {
      SpellLetters(ts[1..]);
      var a, b := Numeral(ts[0]), Spell(ts[1..]);
      forall k | 0 <= k < |a + b| ensures IsRomanLetter((a + b)[k]) {
        if k >= |a| {
          assert (a + b)[k] == b[k - |a|];
        }
      }
    }
  }
}

=== FILE: snapshot.dfy ===
/** The static snapshot of scripts/generate-static.js: prepare
    `dist/static`, copy `public` into it, fetch the rendered page, and
    write `index.html`, `.nojekyll` and `CNAME`. The page the running
    server answers with is a parameter: `Success(html)` or the error the
    fetch failed with. */
module Snapshot {
  import opened Wrappers
  import opened FileTree
  import PathRewrite

  const OutputDir: Path := ["dist", "static"]
  const Domain: string := "belamigw.com"

  const IndexFile: Path := OutputDir + ["index.html"]
  const NoJekyllFile: Path := OutputDir + [".nojekyll"]
  const CnameFile: Path := OutputDir + ["CNAME"]

  /** How a run ends: with the site written, with the fetch failing after
      the copy (the `catch` exits with 1), or with a file system call
      throwing, which also ends the process with 1. */
  datatype Outcome =
    | Finished(fs: Fs)
    | FetchFailed(fs: Fs, reason: string)
    | Crashed(error: FsError)

  function ExitCode(o: Outcome): (code: int)
    ensures code == 0 <==> o.Finished?
    ensures code == 0 || code == 1
  {
    if o.Finished? then 0 else 1
  }

  /** Create the output directory when it is missing, then copy the
      public listing into it. */
  function Prepare(fs: Fs, public: seq<Child>): (r: Result<Fs, FsError>)
    ensures r.Success? ==> OutputDir in r.value && fs.Keys <= r.value.Keys
    ensures r.Success? ==> forall k :: k in fs && !IsPrefix(OutputDir, k) ==> r.value[k] == fs[k]
  {
    var fs1 :- if OutputDir in fs then Success(fs) else MakeDirs(fs, OutputDir);
    CopyDirectory(public, OutputDir, fs1)
  }

  /** The three writes after the page arrives, `page` being the fixed-up
      HTML. */
  function Publish(fs: Fs, html: string): (r: Result<Fs, FsError>)
    ensures r.Success? <==>
      IsDir(fs, OutputDir) && !IsDir(fs, IndexFile) && !IsDir(fs, NoJekyllFile) && !IsDir(fs, CnameFile)
    ensures r.Success? ==> r.value.Keys == fs.Keys + {IndexFile, NoJekyllFile, CnameFile}
    ensures r.Success? ==> r.value[IndexFile] == File(Utf8(PathRewrite.Rewrite(html)))
    ensures r.Success? ==> r.value[NoJekyllFile] == File(Utf8(""))
    ensures r.Success? ==> r.value[CnameFile] == File(Utf8(Domain))
    ensures r.Success? ==> forall k :: k in fs && k !in {IndexFile, NoJekyllFile, CnameFile} ==> r.value[k] == fs[k]
  {
    var page := PathRewrite.Rewrite(html);
    SiteWrites(fs, page);
    WriteSite(fs, page)
  }

  /** `index.html` with the given text, then the two marker files. */
  function WriteSite(fs: Fs, page: string): (r: Result<Fs, FsError>)
    ensures r.Success? <==>
      IsDir(fs, OutputDir) && !IsDir(fs, IndexFile) && !IsDir(fs, NoJekyllFile) && !IsDir(fs, CnameFile)
    ensures r.Success? ==> r.value == fs[IndexFile := File(Utf8(page))][NoJekyllFile := File(Utf8(""))][CnameFile := File(Utf8(Domain))]
  {
    var a :- WriteFile(fs, IndexFile, Utf8(page));
    var b :- WriteFile(a, NoJekyllFile, Utf8(""));
    WriteFile(b, CnameFile, Utf8(Domain))
  }

  /** The three writes entry by entry. */
  lemma SiteWrites(fs: Fs, page: string)
    ensures var r := WriteSite(fs, page);
      && (r.Success? ==> r.value.Keys == fs.Keys + {IndexFile, NoJekyllFile, CnameFile})
      && (r.Success? ==> r.value[IndexFile] == File(Utf8(page)))
      && (r.Success? ==> r.value[NoJekyllFile] == File(Utf8("")) && r.value[CnameFile] == File(Utf8(Domain)))
      && (r.Success? ==> forall k :: k in fs && k !in {IndexFile, NoJekyllFile, CnameFile} ==> r.value[k] == fs[k])
  {
  }

  /** The whole run. A finished run holds the rewritten page and the two
      marker files, and has changed nothing outside the output directory;
      a failed fetch never finishes. */
  function Generate(fs: Fs, public: seq<Child>, page: Result<string, string>): (o: Outcome)
    ensures o.Finished? ==> page.Success? && {IndexFile, NoJekyllFile, CnameFile} <= o.fs.Keys
    ensures o.Finished? ==> o.fs[IndexFile] == File(Utf8(PathRewrite.Rewrite(page.value)))
    ensures o.Finished? ==> o.fs[NoJekyllFile] == File(Utf8("")) && o.fs[CnameFile] == File(Utf8(Domain))
    ensures o.Finished? ==> forall k :: k in fs && !IsPrefix(OutputDir, k) ==> k in o.fs && o.fs[k] == fs[k]
    ensures o.FetchFailed? <==> Prepare(fs, public).Success? && page.Failure?
  {
    match Prepare(fs, public)
    case Failure(e) => Crashed(e)
    case Success(copied) =>
      match page
      case Failure(reason) => FetchFailed(copied, reason)
      case Success(html) =>
        match Publish(copied, html)
        case Failure(e) => Crashed(e)
        case Success(site) => Finished(site)
  }
}

/** Properties of the snapshot. */
module SnapshotFacts {
  import opened Wrappers
  import opened FileTree
  import opened FileTreeFacts
  import opened Snapshot
  import PathRewrite

  lemma PrepareEffect(fs: Fs, public: seq<Child>, copied: Fs)
    requires Prepare(fs, public) == Success(copied)
    ensures CopyDirectory(public, OutputDir, copied) == Success(copied)
    ensures forall k :: k in Writes(public, OutputDir) ==> k in copied && copied[k] == File(Writes(public, OutputDir)[k])
    ensures forall k :: k in fs && !Near(k, OutputDir) ==> k in copied && copied[k] == fs[k]
    ensures forall k :: k in copied && !Near(k, OutputDir) ==> k in fs
  {
    var fs1 := if OutputDir in fs then fs else MakeDirs(fs, OutputDir).value;
    DirectoryMirror(public, OutputDir, fs1, copied);
    DirectoryEffect(public, OutputDir, fs1, copied);
    WritesBelow(public, OutputDir);
    CopyIdempotent(public, OutputDir, fs1, copied);
  }

  /** A finished run holds the rewritten page, the two marker files and
      every public file outside those three names; nothing away from the
      output directory changes. */
  lemma SiteContents(fs: Fs, public: seq<Child>, html: string, site: Fs)
    requires Generate(fs, public, Success(html)) == Finished(site)
    ensures site[IndexFile] == File(Utf8(PathRewrite.Rewrite(html)))
    ensures site[NoJekyllFile] == File(Utf8(""))
    ensures site[CnameFile] == File(Utf8(Domain))
    ensures forall k :: k in Writes(public, OutputDir) && k !in {IndexFile, NoJekyllFile, CnameFile} ==>
      k in site && site[k] == File(Writes(public, OutputDir)[k])
    ensures forall k :: k in fs && !Near(k, OutputDir) ==> k in site && site[k] == fs[k]
  {
    var copied := Prepare(fs, public).value;
    PrepareEffect(fs, public, copied);
  }

  /** The exit status tells whether everything worked: 0 exactly when the
      copy, the fetch and all three writes succeeded. */
  lemma ExitCodeMeaning(fs: Fs, public: seq<Child>, page: Result<string, string>)
    ensures ExitCode(Generate(fs, public, page)) == 0 <==>
      Prepare(fs, public).Success? && page.Success? && Publish(Prepare(fs, public).value, page.value).Success?
  {
  }

  /** A failed fetch exits with 1 after the copy, and writes no page. */
  lemma FetchFailureExitsWithOne(fs: Fs, public: seq<Child>, reason: string)
    requires Prepare(fs, public).Success?
    ensures Generate(fs, public, Failure(reason)) == FetchFailed(Prepare(fs, public).value, reason)
    ensures ExitCode(Generate(fs, public, Failure(reason))) == 1
  {
  }

  /** Generating again over a finished site, with the same public tree
      and page, finishes with the same site. */
  lemma GenerateIdempotent(fs: Fs, public: seq<Child>, html: string, site: Fs)
    requires Generate(fs, public, Success(html)) == Finished(site)
    ensures Generate(site, public, Success(html)) == Finished(site)
  {
    var copied := Prepare(fs, public).value;
    assert Publish(copied, html) == Success(site);
    PrepareEffect(fs, public, copied);
    var again := PrepareAgain(fs, public, copied, html, site);
    PublishAgain(public, copied, again, html, site);
  }

  /** The three writes as map updates. */
  lemma PublishUpdates(fs: Fs, html: string)
    requires Publish(fs, html).Success?
    ensures Publish(fs, html).value
      == fs[IndexFile := File(Utf8(PathRewrite.Rewrite(html)))][NoJekyllFile := File(Utf8(""))][CnameFile := File(Utf8(Domain))]
  {
  }

  /** The copy over a finished site succeeds and only puts the public
      files back. */
  lemma PrepareAgain(fs: Fs, public: seq<Child>, copied: Fs, html: string, site: Fs) returns (again: Fs)
    requires Prepare(fs, public) == Success(copied)
    requires Publish(copied, html) == Success(site)
    ensures Prepare(site, public) == Success(again)
    ensures again == Overwrite(site, Writes(public, OutputDir))
  {
    var fs1 := if OutputDir in fs then fs else MakeDirs(fs, OutputDir).value;
    assert CopyDirectory(public, OutputDir, fs1) == Success(copied);
    PublishUpdates(copied, html);
    assert Compatible(site, copied);
    DirectoryRerun(public, OutputDir, fs1, copied, site);
    again := Overwrite(site, Writes(public, OutputDir));
  }

  /** Publishing over the re-copied site gives the site back. */
  lemma PublishAgain(public: seq<Child>, copied: Fs, again: Fs, html: string, site: Fs)
    requires Publish(copied, html) == Success(site)
    requires CopyDirectory(public, OutputDir, copied) == Success(copied)
    requires again == Overwrite(site, Writes(public, OutputDir))
    ensures Publish(again, html) == Success(site)
  {
    var w := Writes(public, OutputDir);
    DirectoryMirror(public, OutputDir, copied, copied);
    WritesBelow(public, OutputDir);
    PublishUpdates(copied, html);
    assert OutputDir !in w;
    var a, b, c := File(Utf8(PathRewrite.Rewrite(html))), File(Utf8("")), File(Utf8(Domain));
    ReadyAgain(site, copied, w, a, b, c);
    PublishUpdates(again, html);
    Absorb(site, copied, w, a, b, c);
  }

  /** The re-copied site still takes the three writes. */
  lemma ReadyAgain(site: Fs, copied: Fs, w: map<Path, Content>, a: Entry, b: Entry, c: Entry)
    requires site == copied[IndexFile := a][NoJekyllFile := b][CnameFile := c]
    requires a.File? && b.File? && c.File?
    requires IsDir(copied, OutputDir) && OutputDir !in w
    ensures IsDir(Overwrite(site, w), OutputDir)
    ensures !IsDir(Overwrite(site, w), IndexFile)
    ensures !IsDir(Overwrite(site, w), NoJekyllFile)
    ensures !IsDir(Overwrite(site, w), CnameFile)
  {
  }

  /** Files put back where they already were vanish under the three
      writes. */
  lemma Absorb(site: Fs, copied: Fs, w: map<Path, Content>, a: Entry, b: Entry, c: Entry)
    requires site == copied[IndexFile := a][NoJekyllFile := b][CnameFile := c]
    requires forall k :: k in w ==> k in copied && copied[k] == File(w[k])
    ensures Overwrite(site, w)[IndexFile := a][NoJekyllFile := b][CnameFile := c] == site
  {
    var out := Overwrite(site, w)[IndexFile := a][NoJekyllFile := b][CnameFile := c];
    assert out.Keys == site.Keys;
    forall k | k in site
      ensures out[k] == site[k]
    {
    }
  }
}

=== FILE: tabs.dfy ===
/** The tab controller that all three client scripts carry, line for line
    the same: buttons marked `.tab-button` with a `data-tab` attribute,
    panels marked `.tab-content`, and a click that makes its own button and
    the panel `.tab-<name>` the only active ones. */
module Tabs {
  import opened Wrappers

  /** A `.tab-button`: its `data-tab` attribute (absent: `None`) and
      whether it carries the `active` class. */
  datatype Button = Button(tab: Option<string>, active: bool)

  /** The inline `style.display` of a panel. */
  datatype Display = Unset | Hidden | Shown

  /** A `.tab-content`: its other classes (such as `tab-projects`), whether
      it carries `active`, and its display. */
  datatype Panel = Panel(classes: set<string>, active: bool, display: Display)

  datatype Ui = Ui(buttons: seq<Button>, panels: seq<Panel>)

  /** The class a click looks for: `'.tab-' + tabName`, where a missing
      attribute reads as the string `null`. */
  function TabClass(b: Button): string {
    "tab-" + (if b.tab.Some? then b.tab.value else "null")
  }

  /** `querySelector`: the first panel holding the class. */
  function FirstPanel(panels: seq<Panel>, cls: string): (r: Option<nat>)
    ensures r.Some? ==> r.value < |panels| && cls in panels[r.value].classes
    ensures r.Some? ==> forall i :: 0 <= i < r.value ==> cls !in panels[i].classes
    ensures r.None? ==> forall i :: 0 <= i < |panels| ==> cls !in panels[i].classes
  {
    if |panels| == 0 then None
    else if cls in panels[0].classes then Some(0)
    else match FirstPanel(panels[1..], cls)
      case None => None
      case Some(j) => Some(j + 1)
  }

  /** The first button carrying `active` (`.tab-button.active`). */
  function FirstActive(buttons: seq<Button>): (r: Option<nat>)
    ensures r.Some? ==> r.value < |buttons| && buttons[r.value].active
    ensures r.Some? ==> forall i :: 0 <= i < r.value ==> !buttons[i].active
    ensures r.None? ==> forall i :: 0 <= i < |buttons| ==> !buttons[i].active
  {
    if |buttons| == 0 then None
    else if buttons[0].active then Some(0)
    else match FirstActive(buttons[1..])
      case None => None
      case Some(j) => Some(j + 1)
  }

  /** The click handler of button `k`: every button and panel loses
      `active` and every panel is hidden; then the clicked button, and the
      first panel with its tab class if there is one, become active, that
      panel shown. */
  function Click(ui: Ui, k: nat): (r: Ui)
    requires k < |ui.buttons|
    ensures |r.buttons| == |ui.buttons| && |r.panels| == |ui.panels|
    ensures forall i :: 0 <= i < |r.buttons| ==> (r.buttons[i].active <==> i == k)
    ensures forall i :: 0 <= i < |r.buttons| ==> r.buttons[i].tab == ui.buttons[i].tab
    ensures forall i :: 0 <= i < |r.panels| ==> r.panels[i].classes == ui.panels[i].classes
    ensures forall i :: 0 <= i < |r.panels| ==>
      (r.panels[i].active <==> FirstPanel(ui.panels, TabClass(ui.buttons[k])) == Some(i))
    ensures forall i :: 0 <= i < |r.panels| ==>
      r.panels[i].display == if r.panels[i].active then Shown else Hidden
  {
    var target := FirstPanel(ui.panels, TabClass(ui.buttons[k]));
    Ui(
      seq(|ui.buttons|, i requires 0 <= i < |ui.buttons| => ui.buttons[i].(active := i == k)),
      seq(|ui.panels|, i requires 0 <= i < |ui.panels| =>
        if target == Some(i) then ui.panels[i].(active := true, display := Shown)
        else ui.panels[i].(active := false, display := Hidden)))
  }

  /** The first step of the initialisation: panels without `active` are
      hidden, the others keep their display. */
  function HideInactive(ui: Ui): (r: Ui)
    ensures r.buttons == ui.buttons && |r.panels| == |ui.panels|
    ensures forall i :: 0 <= i < |r.panels| ==>
      r.panels[i].classes == ui.panels[i].classes && r.panels[i].active == ui.panels[i].active
    ensures forall i :: 0 <= i < |r.panels| ==>
      r.panels[i].display == if ui.panels[i].active then ui.panels[i].display else Hidden
  {
    Ui(ui.buttons, seq(|ui.panels|, i requires 0 <= i < |ui.panels| =>
      if ui.panels[i].active then ui.panels[i] else ui.panels[i].(display := Hidden)))
  }

  /** The button start-up clicks: the first one marked active, or else
      the first one. */
  function StartButton(buttons: seq<Button>): nat {
    if FirstActive(buttons).Some? then FirstActive(buttons).value else 0
  }

  /** Start-up: hide the inactive panels, then click the first active
      button, or else the first button, or else nothing. */
  function Init(ui: Ui): (r: Ui)
    ensures |r.buttons| == |ui.buttons| && |r.panels| == |ui.panels|
    ensures |ui.buttons| > 0 ==> forall i :: 0 <= i < |r.buttons| ==> (r.buttons[i].active <==> i == StartButton(ui.buttons))
    ensures |ui.buttons| > 0 ==> forall i :: 0 <= i < |r.panels| ==>
      (r.panels[i].active <==> FirstPanel(ui.panels, TabClass(ui.buttons[StartButton(ui.buttons)])) == Some(i))
    ensures |ui.buttons| > 0 ==> forall i :: 0 <= i < |r.panels| ==>
      r.panels[i].display == if r.panels[i].active then Shown else Hidden
  {
    var hidden := HideInactive(ui);
    match FirstActive(ui.buttons)
    case Some(k) =>
      FirstPanelClassesOnly(hidden.panels, ui.panels, TabClass(ui.buttons[k]));
      Click(hidden, k)
    case None =>
      if |ui.buttons| > 0 then
        FirstPanelClassesOnly(hidden.panels, ui.panels, TabClass(ui.buttons[0]));
        Click(hidden, 0)
      else hidden
  }

  /** Exactly one button is active and the panels follow it. */
  predicate Settled(ui: Ui) {
    exists k :: 0 <= k < |ui.buttons| && ui == Click(ui, k)
  }

  // ---------------------------------------------------------------------
  // Properties

  /** A click's outcome depends only on which button was clicked, never
      on the state before: the last click wins. */
  lemma LastClickWins(ui: Ui, j: nat, k: nat)
    requires j < |ui.buttons| && k < |ui.buttons|
    ensures Click(Click(ui, j), k) == Click(ui, k)
  {
    var a, b := Click(Click(ui, j), k), Click(ui, k);
    assert TabClass(Click(ui, j).buttons[k]) == TabClass(ui.buttons[k]);
    FirstPanelClassesOnly(Click(ui, j).panels, ui.panels, TabClass(ui.buttons[k]));
    assert a.buttons == b.buttons;
    assert a.panels == b.panels;
  }

  /** The lookup sees only the panels' classes. */
  lemma {:induction false} FirstPanelClassesOnly(ps: seq<Panel>, qs: seq<Panel>, cls: string)
    requires |ps| == |qs| && forall i :: 0 <= i < |ps| ==> ps[i].classes == qs[i].classes
    ensures FirstPanel(ps, cls) == FirstPanel(qs, cls)
  {
    if |ps| > 0 {
      FirstPanelClassesOnly(ps[1..], qs[1..], cls);
    }
  }

  /** Clicking the same button twice changes nothing the second time. */
  lemma ClickIdempotent(ui: Ui, k: nat)
    requires k < |ui.buttons|
    ensures Click(Click(ui, k), k) == Click(ui, k)
  {
    LastClickWins(ui, k, k);
  }

  /** In a settled page, clicking the active tab is a no-op. */
  lemma ClickActiveIsNoOp(ui: Ui, k: nat)
    requires Settled(ui) && k < |ui.buttons| && ui.buttons[k].active
    ensures Click(ui, k) == ui
  {
    var j :| 0 <= j < |ui.buttons| && ui == Click(ui, j);
    assert j == k;
  }

  /** Any non-empty run of clicks leaves the page settled on the last
      button clicked. */
  function Clicks(ui: Ui, ks: seq<nat>): Ui
    requires forall i :: 0 <= i < |ks| ==> ks[i] < |ui.buttons|
    decreases |ks|
  {
    if |ks| == 0 then ui
    else
      var next := Click(ui, ks[0]);
      Clicks(next, ks[1..])
  }

  lemma {:induction false} ClicksSettle(ui: Ui, ks: seq<nat>)
    requires |ks| > 0 && forall i :: 0 <= i < |ks| ==> ks[i] < |ui.buttons|
    ensures Clicks(ui, ks) == Click(ui, ks[|ks| - 1])
    ensures Settled(Clicks(ui, ks))
    decreases |ks|
  {
    var next := Click(ui, ks[0]);
    if |ks| > 1 {
      ClicksSettle(next, ks[1..]);
      LastClickWins(ui, ks[0], ks[|ks| - 1]);
    }
    ClickIdempotent(ui, ks[|ks| - 1]);
  }

  /** Start-up with at least one button settles on the first button
      marked active, or on the first button when none is. */
  lemma InitSettles(ui: Ui)
    requires |ui.buttons| > 0
    ensures var k := if FirstActive(ui.buttons).Some? then FirstActive(ui.buttons).value else 0;
      && Init(ui) == Click(ui, k)
      && Settled(Init(ui))
  {
    var k := if FirstActive(ui.buttons).Some? then FirstActive(ui.buttons).value else 0;
    var hidden := HideInactive(ui);
    FirstPanelClassesOnly(hidden.panels, ui.panels, TabClass(ui.buttons[k]));
    assert Click(hidden, k) == Click(ui, k);
    ClickIdempotent(ui, k);
  }

  /** With no buttons, start-up only hides the inactive panels. */
  lemma InitWithoutButtons(ui: Ui)
    requires |ui.buttons| == 0
    ensures Init(ui) == HideInactive(ui)
  {
  }

  /** Running start-up again on its own result changes nothing, with or
      without buttons. */
  lemma InitIdempotent(ui: Ui)
    ensures Init(Init(ui)) == Init(ui)
  {
    if |ui.buttons| == 0 {
      HideTwice(ui);
      return;
    }
    var k := if FirstActive(ui.buttons).Some? then FirstActive(ui.buttons).value else 0;
    InitSettles(ui);
    var s := Click(ui, k);
    assert s.buttons[k].active;
    assert FirstActive(s.buttons) == Some(k);
    InitSettles(s);
    ClickIdempotent(ui, k);
  }

  /** Hiding the inactive panels a second time hides nothing more. */
  lemma HideTwice(ui: Ui)
    ensures HideInactive(HideInactive(ui)) == HideInactive(ui)
  {
    var h := HideInactive(ui);
    var hh := HideInactive(h);
    assert forall i :: 0 <= i < |hh.panels| ==> hh.panels[i] == h.panels[i];
  }
}

=== FILE: text.dfy ===
/** String scanning shared by the renderer (`String.prototype.split` on the
    bio) and the snapshot tool (`String.prototype.replace` with a global
    regular expression whose pattern is a plain literal).

    Both JavaScript operations scan left to right and never let two matches
    overlap: after a match the scan resumes just past it. */
module Text {

  /** `pat` occurs in `s` starting at index `i`. */
  predicate OccursAt(s: string, pat: string, i: int) {
    0 <= i && i + |pat| <= |s| && s[i..i + |pat|] == pat
  }

  predicate Contains(s: string, pat: string) {
    exists i | 0 <= i <= |s| :: OccursAt(s, pat, i)
  }

  predicate StartsWith(s: string, pat: string) {
    |pat| <= |s| && s[..|pat|] == pat
  }

  /** No occurrence of `sep` begins inside `part` when `part` is followed
      by `sep`: the separator after `part` is the first one a left-to-right
      scan meets. */
  predicate EndsAtFirstMatch(part: string, sep: string)
    requires |sep| > 0
  {
    !Contains(part + sep[..|sep| - 1], sep)
  }

  /** `Array.prototype.join`: the parts with `sep` between neighbours. */
  function JoinWith(parts: seq<string>, sep: string): string {
    if |parts| == 0 then ""
    else if |parts| == 1 then parts[0]
    else parts[0] + sep + JoinWith(parts[1..], sep)
  }

  /** Sum of the lengths of the parts. */
  function TotalLength(parts: seq<string>): nat {
    if |parts| == 0 then 0 else |parts[0]| + TotalLength(parts[1..])
  }

  /** `s.split(sep)` for a non-empty separator: the text between successive
      non-overlapping occurrences, found left to right. */
  function SplitOn(s: string, sep: string): (parts: seq<string>)
    requires |sep| > 0
    ensures |parts| >= 1
    ensures JoinWith(parts, sep) == s
    ensures forall k :: 0 <= k < |parts| ==> !Contains(parts[k], sep)
    ensures forall k :: 0 <= k < |parts| - 1 ==> EndsAtFirstMatch(parts[k], sep)
    decreases |s|
  {
    if |s| == 0 then
      assert !OccursAt("", sep, 0);
      [""]
    else if StartsWith(s, sep) then
      var rest := SplitOn(s[|sep|..], sep);
      assert s == sep + s[|sep|..];
      NoMatchInEmpty(sep);
      EmptyEndsAtFirstMatch(sep);
      [""] + rest
    else
      var rest := SplitOn(s[1..], sep);
      ConsSplit(s, sep, rest);
      [[s[0]] + rest[0]] + rest[1..]
  }

  /** The scan a global `replace` performs for a literal pattern: each
      occurrence found left to right is replaced by `rep`, and scanning
      resumes after the replaced occurrence. */
  function ReplaceAll(s: string, pat: string, rep: string): (r: string)
    requires |pat| > 0
    ensures r == JoinWith(SplitOn(s, pat), rep)
    decreases |s|
  {
    if |s| == 0 then ""
    else if StartsWith(s, pat) then
      assert SplitOn(s, pat) == [""] + SplitOn(s[|pat|..], pat);
      rep + ReplaceAll(s[|pat|..], pat, rep)
    else
      var rest := SplitOn(s[1..], pat);
      assert SplitOn(s, pat) == [[s[0]] + rest[0]] + rest[1..];
      JoinConsHead(s[0], rest, rep);
      [s[0]] + ReplaceAll(s[1..], pat, rep)
  }

  /** Number of occurrences the left-to-right scan replaces. */
  function CountMatches(s: string, pat: string): nat
    requires |pat| > 0
  {
    |SplitOn(s, pat)| - 1
  }

  // ---------------------------------------------------------------------
  // Lemmas

  lemma NoMatchInEmpty(pat: string)
    requires |pat| > 0
    ensures !Contains("", pat)
  {
    forall i | OccursAt("", pat, i) ensures false {
    }
  }

  lemma {:induction false} JoinConsHead(c: char, parts: seq<string>, sep: string)
    requires |parts| >= 1
    ensures JoinWith([[c] + parts[0]] + parts[1..], sep) == [c] + JoinWith(parts, sep)
  {
    var q := [[c] + parts[0]] + parts[1..];
    assert q[1..] == parts[1..];
    if |parts| == 1 {
    } else {
      calc {
        JoinWith(q, sep);
        q[0] + sep + JoinWith(q[1..], sep);
        ([c] + parts[0]) + sep + JoinWith(parts[1..], sep);
        [c] + (parts[0] + sep + JoinWith(parts[1..], sep));
      }
    }
  }

  /** A match inside a prefix of `s` is a match in `s`. */
  lemma OccursInPrefix(p: string, s: string, pat: string, i: int)
    requires |p| <= |s| && s[..|p|] == p
    requires OccursAt(p, pat, i)
    ensures OccursAt(s, pat, i)
  {
    assert s[i..i + |pat|] == p[i..i + |pat|];
  }

  /** `[s[0]] + rest[0]` is a prefix of `s` when `rest` joins to the
      remainder of `s`. */
  lemma HeadIsPrefix(s: string, sep: string, rest: seq<string>)
    requires |s| > 0 && |rest| >= 1 && JoinWith(rest, sep) == s[1..]
    ensures |[s[0]] + rest[0]| <= |s| && s[..|[s[0]] + rest[0]|] == [s[0]] + rest[0]
  {
    var first := [s[0]] + rest[0];
    if |rest| == 1 {
      assert s == [s[0]] + s[1..];
    } else {
      assert s[1..] == rest[0] + (sep + JoinWith(rest[1..], sep));
      assert s == first + (sep + JoinWith(rest[1..], sep));
    }
  }

  /** The first part of a non-matching head: a match in it at 0 would be
      a match of `s` at 0, and a match further in would be a match in
      `rest[0]`. */
  lemma FirstPartHasNoMatch(s: string, sep: string, rest: seq<string>)
    requires |sep| > 0 && |s| > 0 && !StartsWith(s, sep)
    requires |rest| >= 1 && JoinWith(rest, sep) == s[1..]
    requires !Contains(rest[0], sep)
    ensures !Contains([s[0]] + rest[0], sep)
  {
    var first := [s[0]] + rest[0];
    if OccursAt(first, sep, 0) {
      HeadIsPrefix(s, sep, rest);
      OccursInPrefix(first, s, sep, 0);
    }
    forall i | 0 < i && OccursAt(first, sep, i) ensures false {
      assert first[i..i + |sep|] == rest[0][i - 1..i - 1 + |sep|];
      assert OccursAt(rest[0], sep, i - 1);
    }
  }

  /** An empty part followed by `sep` ends at the first match: nothing
      shorter than `sep` contains it. */
  lemma EmptyEndsAtFirstMatch(sep: string)
    requires |sep| > 0
    ensures EndsAtFirstMatch("", sep)
  {
    assert "" + sep[..|sep| - 1] == sep[..|sep| - 1];
  }

  /** A prefix `t` of `s` whose tail has no match has none itself unless
      `s` starts with the pattern. */
  lemma PrefixNoMatch(s: string, t: string, pat: string)
    requires |pat| > 0 && 0 < |t| <= |s| && s[..|t|] == t
    requires !StartsWith(s, pat) && !Contains(t[1..], pat)
    ensures !Contains(t, pat)
  {
    forall i | 0 <= i <= |t| ensures !OccursAt(t, pat, i) {
      if i == 0 {
        if |pat| <= |t| {
          assert t[..|pat|] == s[..|pat|];
        }
      } else if i + |pat| <= |t| {
        var u := t[1..];
        assert t == [t[0]] + u;
        assert t[i..i + |pat|] == u[i - 1..i - 1 + |pat|];
        assert !OccursAt(u, pat, i - 1);
      }
    }
  }

  /** `[s[0]] + rest[0]` followed by all but the last letter of `sep` is
      a prefix of `s` when at least two parts join to `s[1..]`. */
  lemma HeadTailPrefix(s: string, sep: string, rest: seq<string>)
    requires |sep| > 0 && |s| > 0
    requires |rest| >= 2 && JoinWith(rest, sep) == s[1..]
    ensures var t := [s[0]] + (rest[0] + sep[..|sep| - 1]); |t| <= |s| && s[..|t|] == t
  {
    var tail := sep[..|sep| - 1];
    var t := [s[0]] + (rest[0] + tail);
    assert s[1..] == rest[0] + sep + JoinWith(rest[1..], sep);
    assert sep == tail + sep[|sep| - 1..];
    assert s == [s[0]] + s[1..];
    assert s == t + (sep[|sep| - 1..] + JoinWith(rest[1..], sep));
  }

  /** The first part of a non-matching head still ends at the first
      match: a match starting at 0 would be a match of `s` at 0, and one
      starting further in would start inside `rest[0]`. */
  lemma FirstMatchCons(s: string, sep: string, rest: seq<string>)
    requires |sep| > 0 && |s| > 0 && !StartsWith(s, sep)
    requires |rest| >= 2 && JoinWith(rest, sep) == s[1..]
    requires EndsAtFirstMatch(rest[0], sep)
    ensures EndsAtFirstMatch([s[0]] + rest[0], sep)
  {
    var u := rest[0] + sep[..|sep| - 1];
    var t := [s[0]] + u;
    HeadTailPrefix(s, sep, rest);
    assert t[1..] == u;
    PrefixNoMatch(s, t, sep);
    assert [s[0]] + rest[0] + sep[..|sep| - 1] == t;
  }

  /** A head that does not start a match joins the first part, and the
      parts keep every property of a split. */
  lemma ConsSplit(s: string, sep: string, rest: seq<string>)
    requires |sep| > 0 && |s| > 0 && !StartsWith(s, sep)
    requires |rest| >= 1 && JoinWith(rest, sep) == s[1..]
    requires forall k :: 0 <= k < |rest| ==> !Contains(rest[k], sep)
    requires forall k :: 0 <= k < |rest| - 1 ==> EndsAtFirstMatch(rest[k], sep)
    ensures var parts := [[s[0]] + rest[0]] + rest[1..];
      && JoinWith(parts, sep) == s
      && (forall k :: 0 <= k < |parts| ==> !Contains(parts[k], sep))
      && (forall k :: 0 <= k < |parts| - 1 ==> EndsAtFirstMatch(parts[k], sep))
  {
    JoinConsHead(s[0], rest, sep);
    assert s == [s[0]] + s[1..];
    ConsParts(s, sep, rest);
  }

  /** The parts of a split that does not begin at a separator keep both part properties. */
  lemma ConsParts(s: string, sep: string, rest: seq<string>)
    requires |sep| > 0 && |s| > 0 && !StartsWith(s, sep)
    requires |rest| >= 1 && JoinWith(rest, sep) == s[1..]
    requires forall k :: 0 <= k < |rest| ==> !Contains(rest[k], sep)
    requires forall k :: 0 <= k < |rest| - 1 ==> EndsAtFirstMatch(rest[k], sep)
    ensures var parts := [[s[0]] + rest[0]] + rest[1..];
      && (forall k :: 0 <= k < |parts| ==> !Contains(parts[k], sep))
      && (forall k :: 0 <= k < |parts| - 1 ==> EndsAtFirstMatch(parts[k], sep))
  {
    var parts := [[s[0]] + rest[0]] + rest[1..];
    FirstPartHasNoMatch(s, sep, rest);
    if |rest| >= 2 {
      FirstMatchCons(s, sep, rest);
    }
    forall k | 0 <= k < |parts|
      ensures !Contains(parts[k], sep)
      ensures k < |parts| - 1 ==> EndsAtFirstMatch(parts[k], sep)
    {
      if k > 0 {
        assert parts[k] == rest[k];
      }
    }
  }

  lemma {:induction false} JoinLength(parts: seq<string>, sep: string)
    requires |parts| >= 1
    ensures |JoinWith(parts, sep)| == TotalLength(parts) + (|parts| - 1) * |sep|
  {
    if |parts| > 1 {
      JoinLength(parts[1..], sep);
    }
  }

  /** A text without the separator splits into itself alone. */
  lemma {:induction false} SplitWithoutMatch(s: string, sep: string)
    requires |sep| > 0 && !Contains(s, sep)
    ensures SplitOn(s, sep) == [s]
    decreases |s|
  {
    if |s| > 0 {
      assert !OccursAt(s, sep, 0);
      forall i | OccursAt(s[1..], sep, i) ensures false {
        assert s[1..][i..i + |sep|] == s[i + 1..i + 1 + |sep|];
        assert OccursAt(s, sep, i + 1);
      }
      SplitWithoutMatch(s[1..], sep);
    }
  }

  /** Replacing every match changes the length by the length difference
      once per match. */
  lemma ReplaceAllLength(s: string, pat: string, rep: string)
    requires |pat| > 0
    ensures |ReplaceAll(s, pat, rep)| == |s| - CountMatches(s, pat) * (|pat| - |rep|)
  {
    var parts := SplitOn(s, pat);
    var k := |parts| - 1;
    JoinLength(parts, pat);
    JoinLength(parts, rep);
    assert |s| == TotalLength(parts) + k * |pat|;
    assert |ReplaceAll(s, pat, rep)| == TotalLength(parts) + k * |rep|;
    assert CountMatches(s, pat) == k;
    Distribute(k, |pat|, |rep|);
  }

  lemma Distribute(k: int, a: int, b: int)
    ensures k * (a - b) == k * a - k * b
  {
  }

  /** Replacing a pattern by itself is the identity. */
  lemma ReplaceWithSelf(s: string, pat: string)
    requires |pat| > 0
    ensures ReplaceAll(s, pat, pat) == s
  {
  }

  /** A text with no match passes through unchanged. */
  lemma ReplaceWithoutMatch(s: string, pat: string, rep: string)
    requires |pat| > 0 && !Contains(s, pat)
    ensures ReplaceAll(s, pat, rep) == s
    ensures CountMatches(s, pat) == 0
  {
    SplitWithoutMatch(s, pat);
  }

  /** A text missing one of the pattern's letters holds no match. */
  lemma AbsentLetter(s: string, pat: string, k: int)
    requires 0 <= k < |pat|
    requires forall j :: 0 <= j < |s| ==> s[j] != pat[k]
    ensures !Contains(s, pat)
  {
    forall i | 0 <= i <= |s| ensures !OccursAt(s, pat, i) {
      if i + |pat| <= |s| {
        assert s[i..i + |pat|][k] != pat[k];
      }
    }
  }

  /** A match at the front is replaced and the scan goes on after it. */
  lemma ReplaceAtFront(pat: string, rest: string, rep: string)
    requires |pat| > 0
    ensures ReplaceAll(pat + rest, pat, rep) == rep + ReplaceAll(rest, pat, rep)
  {
    var s := pat + rest;
    assert s[..|pat|] == pat && s[|pat|..] == rest;
  }

  /** A letter that cannot start the pattern adds no match in front. */
  lemma ConsNoMatch(c: char, s: string, pat: string)
    requires |pat| > 0 && c != pat[0] && !Contains(s, pat)
    ensures !Contains([c] + s, pat)
  {
    var t := [c] + s;
    forall i | 0 <= i <= |t| ensures !OccursAt(t, pat, i) {
      if i == 0 && |pat| <= |t| {
        assert t[i..i + |pat|][0] != pat[0];
      } else if 0 < i && i + |pat| <= |t| {
        assert t[i..i + |pat|] == s[i - 1..i - 1 + |pat|];
        assert !OccursAt(s, pat, i - 1);
      }
    }
  }

  /** Three newlines in a row: the scan takes the first two as the
      separator, so the third begins the second part. */
  lemma LeftmostSplitExample()
    ensures SplitOn("a\n\n\nb", "\n\n") == ["a", "\nb"]
  {
    var s := "a\n\n\nb";
    assert SplitOn("b", "\n\n") == ["b"] by {
      assert SplitOn("", "\n\n") == [""];
    }
    assert SplitOn("\nb", "\n\n") == ["\nb"];
    assert StartsWith(s[1..], "\n\n");
    assert s[1..][2..] == "\nb";
    assert SplitOn(s[1..], "\n\n") == ["", "\nb"];
    assert !StartsWith(s, "\n\n");
    assert SplitOn(s, "\n\n") == [[s[0]] + ""] + ["\nb"];
    assert [s[0]] + "" == "a";
  }
}

=== FILE: wrappers.dfy ===
/** Failure-compatible wrappers shared by the model: an optional value and
    the outcome of a filesystem step. */
module Wrappers {

  /** A value that may be absent (an optional field of a record, a
      `querySelector` that finds nothing, an error without detail text). */
  datatype Option<+T> = None | Some(value: T) {
    predicate IsFailure() {
      None?
    }

    function PropagateFailure<U>(): Option<U>
      requires None?
    {
      None
    }

    function Extract(): T
      requires Some?
    {
      value
    }
  }

  /** The outcome of an operation that may throw. */
  datatype Result<+R, +E> = Success(value: R) | Failure(error: E) {
    predicate IsFailure() {
      Failure?
    }

    function PropagateFailure<U>(): Result<U, E>
      requires Failure?
    {
      Failure(error)
    }

    function Extract(): R
      requires Success?
    {
      value
    }
  }
}
